=== FILE: README.md ===
# squad-maker in Dafny

A model of the logic of squad-maker, a web page that splits the players selected for an informal
football match into two teams. The modelled parts are:

- the team balancer `balanceTeams`;
- the persistence of the selection (save the selected ids, apply them back);
- the selection screen's state changes (select one player, Select All, Clear All, the selected count, Generate Teams);
- the roster filter of the player grid (position filter and case-insensitive name search);
- the guest-player form (position toggle, validation, construction, reset);
- what a team card shows (position counts, position groups, the average with its fallback).

The balancer works as follows:

1. It fails below two players.
2. It sorts the players stably by rating, best first.
3. It gives the best goalkeeper-eligible player to Team A and the second best to Team B.
4. It hands every outfielder, then every surplus keeper, one at a time to the team whose current mean rating is lower. Ties go to Team A, and an empty team's mean is 0.
5. It records each team's mean.

Team sizes are not balanced: a keeper rated 8 with outfielders rated 6, 5, 4 and 3 gives Team A the keeper alone and Team B the four outfielders (`BalancerExamples.UnevenSizes`).

The code does no per-position bucketing, no alternating (snake) draft within positions, no tie threshold on the averages and no final size correction, and it does not bound the difference in team sizes.

Modelling choices:

- Ratings are exact `real`s.
- Optional fields (`isSelected?`, `isGuest?`, `averageRating?`) are `Option`s. An absent `isSelected` reads as false.
- The browser store is the value held under the selection key: an id list, or `None` when nothing usable is stored. Loading applies it without saving, so until the first change it may hold ids that are not on the roster; the first save drops them (`FirstSaveDropsUnlistedIds`).
- The sort is modelled as an insertion sort, descending by rating. It is stable, and its output equals that of any stable sort with the same order, ties included (`SortIsStable`, `StableSortIsSortByRating`).
- The clock-based guest id is a parameter.
- Regeneration is the balancer applied to any permutation of the selection.

Modules, one per source file, plus the shared `Seqs` helpers and the `BalancerExamples` worked examples:

- `Types`: `src/types/index.ts`
- `Seqs`: `Array.prototype.filter`, subsequences and interleavings
- `TeamBalancer`: `src/app/lib/teamBalancer.ts`
- `BalancerExamples`: worked examples of the balancer
- `SelectionStore`: `src/app/lib/localStorage.ts`
- `PlayerSelection`: `src/app/components/PlayerSelection/index.tsx`
- `PlayerGrid`: `src/app/components/PlayerSelection/PlayerGrid.tsx`
- `GuestEntry`: `src/app/components/PlayerSelection/GuestPlayerCard.tsx`
- `TeamCard`: `src/app/components/TeamGeneration/TeamCard.tsx`

## Model

| member | source | states |
|---|---|---|
| TeamBalancer.BalanceTeams | src/app/lib/teamBalancer.ts:6-64 | Fails exactly when fewer than two players are given. Otherwise it returns Team A then Team B, with ids 'A'/'B' and names 'Team A'/'Team B'. The two rosters together hold every input player exactly once, and each team's average is the mean of its own final roster. |
| TeamBalancer.BuildLineup | src/app/lib/teamBalancer.ts:12-57 | The two rosters built from the input are a partition of it as a multiset. |
| TeamBalancer.TeamRating | src/app/lib/teamBalancer.ts:41-44 | `getTeamRating`: 0 for an empty roster, otherwise the value that multiplied by the roster size gives the sum of the ratings, i.e. the mean. Its bounds are stated by `TeamRatingBounds`. |
| TeamBalancer.SortByRating | src/app/lib/teamBalancer.ts:12 | The sorted list is a permutation of the input, ordered by rating from highest to lowest. |
| TeamBalancer.InsertByRating | src/app/lib/teamBalancer.ts:12 | One insertion step of the sort adds exactly the new player. The result starts with either the new player or the old head. |
| TeamBalancer.SortIsStable | src/app/lib/teamBalancer.ts:12 | For every rating, the players with that rating appear in the sorted list in their input order. |
| TeamBalancer.SortKeepsSortedInput | src/app/lib/teamBalancer.ts:12 | Input already ordered best first is returned unchanged. |
| TeamBalancer.SortedPermutationUnique | src/app/lib/teamBalancer.ts:12 | Two best-first orderings of the same players are identical when no two different players share a rating. |
| TeamBalancer.SortedTiesUnique | src/app/lib/teamBalancer.ts:12 | Two best-first orderings that list the players of every rating in the same order are identical, whether or not ratings tie. |
| TeamBalancer.StableSortIsSortByRating | src/app/lib/teamBalancer.ts:12 | Any best-first ordering that keeps each rating's players in their input order is exactly the modelled sort, so the model agrees with every stable sort. |
| TeamBalancer.TeamRatingBounds | src/app/lib/teamBalancer.ts:41-44 | A non-empty team's mean lies between the lowest and the highest rating on it. |
| TeamBalancer.KeeperSplitCovers | src/app/lib/teamBalancer.ts:27-38 | The keeper split and the surplus keepers together hold every keeper once. |
| TeamBalancer.KeeperSplit | src/app/lib/teamBalancer.ts:27-38 | Each team opens with at most one keeper, Team B only when Team A has one. Team A's then Team B's opener are the first two keepers in order (fewer when fewer exist). |
| TeamBalancer.SplitCoversAll | src/app/lib/teamBalancer.ts:18-38 | Goalkeepers (Goalkeeper listed anywhere) and outfielders partition the sorted list. Together with the queue, the opening split holds every player once. |
| TeamBalancer.KeepersRanked | src/app/lib/teamBalancer.ts:18-20 | The keeper list holds exactly the input's goalkeeper-eligible players, ordered best first. Every input keeper is rated at most the first keeper's rating. |
| TeamBalancer.BalanceSplitsKeepers | src/app/lib/teamBalancer.ts:27-38 | With two or more keepers, Team A opens with the best keeper and Team B with the second best. With exactly one, Team A opens with it and Team B receives only outfielders. |
| TeamBalancer.BalanceOpenersAreBest | src/app/lib/teamBalancer.ts:27-38 | No input keeper is rated above Team A's opening keeper. No keeper after the first is rated above Team B's opening keeper. |
| TeamBalancer.ProcessingOrderShape | src/app/lib/teamBalancer.ts:22-34 | The queue is every outfielder, best first, followed by the keepers beyond the first two. There are max(0, k-2) of those, all rated at most the second keeper, best first. |
| TeamBalancer.ProcessingOrder | src/app/lib/teamBalancer.ts:22-34 | The queue starts with the outfielders in sorted order, and everything after them is a goalkeeper. The full shape is stated by `ProcessingOrderShape`. |
| TeamBalancer.Distribute | src/app/lib/teamBalancer.ts:48-57 | The loop only appends to the teams. The players appended to A and to B are an interleaving of the queue, so each team receives its share in queue order. |
| TeamBalancer.DistributeCovers | src/app/lib/teamBalancer.ts:48-57 | The loop neither loses nor duplicates a player. |
| TeamBalancer.DistributePreservesB | src/app/lib/teamBalancer.ts:48-57 | Any property held by Team B's opening members and by every queued player holds for all of Team B at the end. |
| TeamBalancer.DistributeStep | src/app/lib/teamBalancer.ts:49-56 | After the first k players, player k joins Team A exactly when A's mean is at most B's mean, with an empty team counting 0. Otherwise it joins Team B. |
| TeamBalancer.Assign | src/app/lib/teamBalancer.ts:49-56 | One loop iteration appends the player to exactly one team and moves nobody. The player goes to Team A exactly when A's mean is at most B's. |
| TeamBalancer.RegenerateSameWhenRatingsDistinct | src/app/page.tsx:31-43 | Rebalancing a shuffled copy still succeeds and still places every player once. When no two different players share a rating, it gives exactly the original teams. |
| BalancerExamples.UnevenSizes | src/app/lib/teamBalancer.ts:48-57 | A keeper rated 8 with outfielders rated 6, 5, 4 and 3 gives A = {8} and B = {6, 5, 4, 3}, with averages 8 and 4.5. The sizes differ by three. |
| SelectionStore.SaveSelectedPlayers | src/app/lib/localStorage.ts:8-16 | The saved list is an order-preserving subsequence of the roster's ids. An id is saved exactly when a selected player carries it. |
| SelectionStore.LoadSelectedPlayerIds | src/app/lib/localStorage.ts:21-33 | A store holding nothing usable yields no ids. |
| SelectionStore.ApplySelectedStatus | src/app/lib/localStorage.ts:38-44 | Same length and order. Every field except `isSelected` is unchanged. The flag is always present, and true exactly when the player's id was loaded. |
| SelectionStore.MissingStoreDeselectsAll | src/app/lib/localStorage.ts:22-32 | With a missing or unreadable store every player comes back deselected. |
| SelectionStore.ApplyIdempotent | src/app/lib/localStorage.ts:41-44 | Applying the same stored ids twice is the same as applying them once. |
| SelectionStore.SaveThenApplyRestores | src/app/lib/localStorage.ts:11-44 | With unique ids, applying what was saved gives every player back its selection, with an absent flag becoming false. A roster whose flags are all present comes back unchanged. |
| PlayerSelection.LoadSelection | src/app/components/PlayerSelection/index.tsx:17-19 | The first render keeps the roster length, and every player carries a defined selection flag. |
| PlayerSelection.SetSelected | src/app/components/PlayerSelection/index.tsx:22-25 | Players with the given id get exactly the new flag and are otherwise unchanged. All other players, the length and the order stay as they were. |
| PlayerSelection.SelectAll | src/app/components/PlayerSelection/index.tsx:71 | Every player becomes selected. Nothing else changes. |
| PlayerSelection.ClearAll | src/app/components/PlayerSelection/index.tsx:82 | Every player becomes explicitly deselected. Nothing else changes. |
| PlayerSelection.HandleSelectPlayer | src/app/components/PlayerSelection/index.tsx:22-29 | Sets the flag of the chosen player and saves. What is saved is stated by `SelectPlayerSavesChosen` and `SelectPlayerKeepsOthers`; that the result reloads unchanged by `HandlersPersistSelection`. |
| PlayerSelection.HandleSelectAll | src/app/components/PlayerSelection/index.tsx:70-74 | Selects everyone and saves. The count becomes the roster size (`SelectAllClearAllCounts`), and the result reloads unchanged (`HandlersPersistSelection`). |
| PlayerSelection.HandleClearAll | src/app/components/PlayerSelection/index.tsx:81-85 | Deselects everyone and saves. The count becomes 0 (`SelectAllClearAllCounts`), and the result reloads unchanged (`HandlersPersistSelection`). |
| PlayerSelection.SelectedPlayers | src/app/components/PlayerSelection/index.tsx:35-37 | The list handed to generation: exactly the selected players in roster order, as stated by `SelectedPlayersExact`. |
| PlayerSelection.SelectedCount | src/app/components/PlayerSelection/index.tsx:32 | The number of selected players. It is at most the roster size (`SelectedPlayersExact`), the roster size after Select All and 0 after Clear All (`SelectAllClearAllCounts`). |
| PlayerSelection.SelectedPlayersExact | src/app/components/PlayerSelection/index.tsx:32-37 | The list handed to generation is the selected players in roster order: a subsequence holding exactly the selected ones. The count is at most the roster size. |
| PlayerSelection.SelectAllClearAllCounts | src/app/components/PlayerSelection/index.tsx:71-84 | After Select All the count is the roster size and every player is handed on. After Clear All the count is 0. |
| PlayerSelection.SelectPlayerSavesChosen | src/app/components/PlayerSelection/index.tsx:22-28 | After selecting or deselecting, the chosen id is saved exactly when the new flag is true and the id is on the roster. An unknown id leaves the roster unchanged, and the whole state too when the store was in step with the roster. |
| PlayerSelection.SelectPlayerKeepsOthers | src/app/components/PlayerSelection/index.tsx:22-28 | Every other id is saved after the change exactly when saving the roster before the change would have saved it. When the store was already in step with the roster, that is exactly when the store held it. |
| PlayerSelection.FirstSaveDropsUnlistedIds | src/app/components/PlayerSelection/index.tsx:17-28 | Loading applies the store without saving, so it may still hold ids that are not on the roster. The first click on a player saves from the roster and drops every such id. |
| PlayerSelection.SavedRosterRestorable | src/app/lib/localStorage.ts:11-44 | A saved roster with unique ids and defined flags is reloaded unchanged. |
| PlayerSelection.HandlersPersistSelection | src/app/components/PlayerSelection/index.tsx:22-84 | Each of the three handlers keeps ids unique and flags defined, and saves what it shows, so applying the store to the roster on screen gives that roster back. |
| PlayerSelection.ReloadRestoresScreen | src/app/components/PlayerSelection/index.tsx:17-19 | A reload applies the store to the initial roster. When the screen shows the initial players with only their selection changed and its state is restorable, the reload reproduces exactly the roster on screen. |
| PlayerSelection.GenerateTeams | src/app/components/PlayerSelection/index.tsx:35-93 | Teams are produced exactly when at least two players are selected (the button is disabled below two, and the page's handler in src/app/page.tsx returns early too), so the balancer's error is never reached. The teams hold exactly the selected players. |
| PlayerGrid.LowerChar | src/app/components/PlayerSelection/PlayerGrid.tsx:21 | A lowered character is never an ASCII capital. A capital moves up by 32 code points, to its lower-case letter. Anything else is unchanged. |
| PlayerGrid.Lower | src/app/components/PlayerSelection/PlayerGrid.tsx:21 | `toLowerCase` character by character, ASCII only. It keeps the length, is idempotent (`LowerIdempotent`) and distributes over concatenation (`LowerAppend`). |
| PlayerGrid.Includes | src/app/components/PlayerSelection/PlayerGrid.tsx:21 | `String.prototype.includes`: characterised by `IncludesAt` as the term being a prefix of some suffix, and closed under prefixes of the term by `IncludesPrefix`. |
| PlayerGrid.IncludesAt | src/app/components/PlayerSelection/PlayerGrid.tsx:21 | `includes` holds exactly when the term is a prefix of some suffix of the name. The empty term is included in any name. |
| PlayerGrid.IncludesPrefix | src/app/components/PlayerSelection/PlayerGrid.tsx:21 | A name containing a term contains every prefix of that term. |
| PlayerGrid.FilteredPlayersExact | src/app/components/PlayerSelection/PlayerGrid.tsx:16-24 | The shown list is an order-preserving subsequence of the roster. A player is shown exactly when the filter is All or lists one of its positions, and its lowered name contains the lowered term. |
| PlayerGrid.FilteredPlayers | src/app/components/PlayerSelection/PlayerGrid.tsx:16-24 | `filteredPlayers`: an order-preserving subsequence of the roster kept by the position test AND the lower-cased substring test (`FilteredPlayersExact`). It narrows with a longer term or a position and ignores the case of the term. |
| PlayerGrid.NoFilterShowsAll | src/app/components/PlayerSelection/PlayerGrid.tsx:96-99 | With All and an empty search term the whole roster is shown, in order. |
| PlayerGrid.LongerTermNarrows | src/app/components/PlayerSelection/PlayerGrid.tsx:21 | Extending the search term yields a subsequence of the previous result. It never adds a player. |
| PlayerGrid.PositionNarrows | src/app/components/PlayerSelection/PlayerGrid.tsx:18 | A position filter shows a subsequence of what All shows for the same term, and never a player lacking that position. |
| PlayerGrid.SearchIgnoresCase | src/app/components/PlayerSelection/PlayerGrid.tsx:21 | Lower-casing the term does not change the result. |
| GuestEntry.TogglePosition | src/app/components/PlayerSelection/GuestPlayerCard.tsx:18-24 | An absent position is appended once at the end, keeping the list before it, so the list grows by exactly one. A present one is removed everywhere, giving a shorter subsequence in which every other position keeps its number of occurrences. Other positions are unaffected. |
| GuestEntry.ToggleKeepsDistinct | src/app/components/PlayerSelection/GuestPlayerCard.tsx:18-24 | Toggling never creates a repeated position. |
| GuestEntry.ClicksKeepPositionsDistinct | src/app/components/PlayerSelection/GuestPlayerCard.tsx:12-24 | From the empty list, any sequence of clicks gives a list without repeats, of at most four positions. |
| GuestEntry.DistinctPositionsAtMostFour | src/app/components/PlayerSelection/GuestPlayerCard.tsx:16 | A list of positions without repeats has at most four entries. |
| GuestEntry.ToggleTwiceRestores | src/app/components/PlayerSelection/GuestPlayerCard.tsx:19-23 | Toggling an absent position twice gives back the original list. |
| GuestEntry.ToggleTwiceMovesLast | src/app/components/PlayerSelection/GuestPlayerCard.tsx:19-23 | Toggling a present position twice moves it to the end, after the others in their order. |
| GuestEntry.TrimStart | src/app/components/PlayerSelection/GuestPlayerCard.tsx:27 | The result is a suffix of the input. Only white space is dropped, and the result does not start with white space. |
| GuestEntry.TrimEnd | src/app/components/PlayerSelection/GuestPlayerCard.tsx:27 | The result is a prefix of the input. Only white space is dropped, and the result does not end with white space. |
| GuestEntry.Trim | src/app/components/PlayerSelection/GuestPlayerCard.tsx:27-32 | `String.prototype.trim`: a contiguous stretch with only white space removed from both ends (`TrimShape`). It is empty exactly for a blank name (`TrimEmptyIffBlank`) and idempotent (`TrimIdempotent`). |
| GuestEntry.TrimEmptyIffBlank | src/app/components/PlayerSelection/GuestPlayerCard.tsx:27 | The trimmed name is empty exactly when the name is all white space. |
| GuestEntry.TrimShape | src/app/components/PlayerSelection/GuestPlayerCard.tsx:32 | The trimmed name is a contiguous stretch of the name with only white space cut off on either side. It neither starts nor ends with white space. |
| GuestEntry.TrimIdempotent | src/app/components/PlayerSelection/GuestPlayerCard.tsx:32 | Trimming twice is trimming once. |
| GuestEntry.AddGuest | src/app/components/PlayerSelection/GuestPlayerCard.tsx:26-46 | Nothing is added, and the form is left unchanged, exactly when no position is ticked or the name is blank. Otherwise the guest carries the given id, the trimmed non-empty name, the ticked positions and the rating. It is selected and marked as a guest, and the form resets to no positions, rating 7 and an empty name. |
| GuestEntry.GuestIsWellFormed | src/app/components/PlayerSelection/GuestPlayerCard.tsx:30-37 | A guest built from a form without repeated positions lists one to four distinct positions. Its name has no white space at either end. |
| GuestEntry.ResetFormCannotAdd | src/app/components/PlayerSelection/GuestPlayerCard.tsx:41-45 | Right after an add, the reset form cannot add another guest. |
| TeamCard.CountPositions | src/app/components/TeamGeneration/TeamCard.tsx:12-14 | The count never exceeds the number of players. |
| TeamCard.CountPositionsExtremes | src/app/components/TeamGeneration/TeamCard.tsx:12-14 | The count equals the team size exactly when every player lists the position anywhere. It is zero exactly when none does. |
| TeamCard.BalancedCountsAddUp | src/app/components/TeamGeneration/TeamCard.tsx:53-62 | For every position, the two generated teams' counts add up to the count over the selected players. |
| TeamCard.GroupMembership | src/app/components/TeamGeneration/TeamCard.tsx:20-23 | The goalkeeper group holds exactly the players listing Goalkeeper anywhere. An outfield group holds exactly the players whose first position is that position. Both keep team order. |
| TeamCard.GoalkeeperGroup | src/app/components/TeamGeneration/TeamCard.tsx:20 | The Goalkeepers section: exactly the players listing Goalkeeper anywhere, in team order (`GroupMembership`). |
| TeamCard.OutfieldGroup | src/app/components/TeamGeneration/TeamCard.tsx:83-113 | The badges under an outfield heading: exactly the players whose first position is that position, in team order (`GroupMembership`, `EveryPlayerDrawn`). |
| TeamCard.EveryPlayerDrawn | src/app/components/TeamGeneration/TeamCard.tsx:68-119 | A player is drawn in some group exactly when it has a position. It is drawn twice exactly when it lists Goalkeeper but not first. |
| TeamCard.SecondaryPositionShowsEmptyHeading | src/app/components/TeamGeneration/TeamCard.tsx:79-88 | A lone player listing Defender second makes the Defender heading appear with no badge under it. |
| TeamCard.DisplayedAverageFallback | src/app/components/TeamGeneration/TeamCard.tsx:16-17 | A stored non-zero average is shown as it is, even when it is not the mean. An absent or zero one is replaced by the recomputed mean, which is 0 for an empty team. A stored average that is the mean is therefore shown as the mean. |
| TeamCard.DisplayedAverage | src/app/components/TeamGeneration/TeamCard.tsx:16-17 | The average on the card: the stored one when non-zero, otherwise the recomputed mean (`DisplayedAverageFallback`, `GeneratedTeamsShowMean`). |
| TeamCard.GeneratedTeamsShowMean | src/app/components/TeamGeneration/TeamCard.tsx:16-17 | A generated team shows the mean of its members. For a non-empty team it lies between the lowest and the highest selected rating. |

## Left out

- Rendering is not modelled. This covers React hooks, JSX, the modal's open flag, buttons, colours and CSS-class helpers (`getPositionStyle`, `getPositionButtonColor`, `PlayerBadge`, `PlayerCard`, `Button`, `Header`), because it is presentation only.
- `getPositionCount` in `src/app/components/TeamGeneration/TeamDisplay.tsx` is left out because it duplicates `countPositions`.
- Browser storage I/O is not modelled: `localStorage`, the `window` check, `JSON.stringify` and `JSON.parse`. The store is the optional id list it holds, and a parse failure is `None`. Stored JSON that parses to something other than a string array is outside the model.
- `Date.now()` for the guest id and the `Math.random` shuffle are left out because they are nondeterministic. The id is a parameter, and regeneration is stated for every permutation.
- Floating point is not modelled: rounding in the means and `toFixed`. Ratings are exact reals, so ties that exist only under IEEE rounding are out of scope.
- PlayerGrid.Lower: lower-cases ASCII capitals only, because Unicode case mapping is a table this model does not reproduce.
- The guest form's Cancel button (GuestPlayerCard.tsx:127-132) is not modelled as an operation. It resets the form to the same `EmptyForm` and closes the modal.
- The rating slider's range (5 to 10 in steps of 0.5) is not enforced: the form carries whatever rating it is given.
- TeamCard's `prioritizePositions` is never called and is left out.
- `src/app/lib/dndFix.ts` is a React patch and is left out. The roster data in `src/app/data/players.ts` is also left out.
- The balancer promises nothing about team sizes: there is no per-position balancing and no size correction, so the model states no size bound. `BalancerExamples.UnevenSizes` shows sizes 1 and 4.

=== FILE: balancer_examples.dfy ===
/**
 * Worked examples of the balancer. They document what the greedy loop of
 * src/app/lib/teamBalancer.ts does on small inputs, including inputs on
 * which it leaves the two teams of very different sizes.
 */
module BalancerExamples {
  import opened Types
  import opened Seqs
  import opened TeamBalancer

  function Roster(id: string, position: Position, rating: real): Player {
    Player(id, id, [position], rating, None, None)
  }

  const K := Roster("k", Goalkeeper, 8.0)
  const A := Roster("a", Forward, 6.0)
  const B := Roster("b", Forward, 5.0)
  const C := Roster("c", Defender, 4.0)
  const D := Roster("d", Midfielder, 3.0)

  lemma ExampleSorted()
    ensures SortedByRating([K, A, B, C, D])
  {
  }

  lemma ExampleQueue()
    ensures Keepers([K, A, B, C, D]) == [K]
    ensures ProcessingOrder([K, A, B, C, D]) == [A, B, C, D]
  {
    var rest := [A, B, C, D];
    assert [K, A, B, C, D] == [K] + rest;
    FilterCons(IsGoalkeeper, K, rest);
    FilterDropsAll(IsGoalkeeper, rest);
    FilterCons(IsOutfielder, K, rest);
    FilterKeepsAll(IsOutfielder, rest);
  }

  lemma ExampleRatings()
    ensures TeamRating([K]) == 8.0
    ensures TeamRating([A]) == 6.0
    ensures TeamRating([A, B]) == 5.5
    ensures TeamRating([A, B, C]) == 5.0
    ensures TeamRating([A, B, C, D]) == 4.5
  {
    assert [K][1..] == [] && [A][1..] == [];
    assert [A, B][1..] == [B] && [B][1..] == [];
    assert [A, B, C][1..] == [B, C] && [B, C][1..] == [C] && [C][1..] == [];
    assert K.rating == 8.0 && A.rating == 6.0 && B.rating == 5.0 && C.rating == 4.0;
    assert Sum([]) == 0.0;
    assert Sum([K]) == 8.0;
    assert Sum([C]) == 4.0;
    assert Sum([B, C]) == 9.0;
    assert Sum([B]) == 5.0;
    assert Sum([A, B]) == 11.0;
    assert Sum([A, B, C]) == 15.0;
    assert [A, B, C, D][1..] == [B, C, D] && [D][1..] == [];
    assert [B, C, D][1..] == [C, D] && [C, D][1..] == [D];
    assert Sum([D]) == 3.0 && Sum([C, D]) == 7.0 && Sum([B, C, D]) == 12.0;
    assert Sum([A, B, C, D]) == 18.0;
  }

  lemma ExampleLoop()
    ensures Distribute(Lineup([K], []), [A, B, C, D]) == Lineup([K], [A, B, C, D])
  {
    ExampleRatings();
    assert TeamRating([]) == 0.0;
    assert [D][1..] == [] && [C, D][1..] == [D] && [B, C, D][1..] == [C, D] && [A, B, C, D][1..] == [B, C, D];
    assert [A, B, C] + [D] == [A, B, C, D];
    assert [A, B] + [C] == [A, B, C];
    assert [A] + [B] == [A, B];
    assert [] + [A] == [A];
    assert Assign(Lineup([K], []), A) == Lineup([K], [A]);
    assert Assign(Lineup([K], [A]), B) == Lineup([K], [A, B]);
    assert Assign(Lineup([K], [A, B]), C) == Lineup([K], [A, B, C]);
    assert Assign(Lineup([K], [A, B, C]), D) == Lineup([K], [A, B, C, D]);
    assert Distribute(Lineup([K], [A, B, C]), [D]) == Lineup([K], [A, B, C, D]);
    assert Distribute(Lineup([K], [A, B]), [C, D]) == Lineup([K], [A, B, C, D]);
    assert Distribute(Lineup([K], [A]), [B, C, D]) == Lineup([K], [A, B, C, D]);
  }

  /**
   * A lone goalkeeper rated 8 with outfielders rated 6, 5, 4 and 3: Team A's
   * mean never drops to Team B's, so Team A keeps only its keeper and the
   * sizes differ by three.
   */
  lemma UnevenSizes()
    ensures var r := BalanceTeams([K, A, B, C, D]);
            && r.Success?
            && r.value.0.players == [K] && r.value.1.players == [A, B, C, D]
            && r.value.0.averageRating == Some(8.0) && r.value.1.averageRating == Some(4.5)
  {
    ExampleSorted();
    SortKeepsSortedInput([K, A, B, C, D]);
    ExampleQueue();
    ExampleLoop();
    ExampleRatings();
    assert BuildLineup([K, A, B, C, D]) == Lineup([K], [A, B, C, D]);
  }
}

=== FILE: guest_player_card.dfy ===
/**
 * The guest-player form (src/app/components/PlayerSelection/GuestPlayerCard.tsx):
 * toggling positions, validating the form, building the guest record and
 * resetting the form. The guest id, which the source derives from the
 * clock, is a parameter.
 */
module GuestEntry {
  import opened Types
  import opened Seqs

  /** The test `p !== position` used to remove a position. */
  function Other(position: Position): Position -> bool {
    p => p != position
  }

  /**
   * `handlePositionToggle`: a listed position is removed (every occurrence),
   * an unlisted one is appended at the end.
   */
  function TogglePosition(positions: seq<Position>, position: Position): (r: seq<Position>)
    ensures position in r <==> position !in positions
    ensures forall q :: q != position ==> (q in r <==> q in positions)
    ensures position !in positions ==> positions < r && r[|r| - 1] == position && |r| == |positions| + 1
    ensures position in positions ==> IsSubsequence(r, positions) && |r| < |positions|
    ensures position in positions ==> multiset(r) == multiset(positions)[position := 0]
  {
    if position in positions then
      FilterMembers(Other(position), positions);
      FilterCounts(Other(position), positions);
      FilterIsSubsequence(Other(position), positions);
      FilterLength(Other(position), positions);
      Filter(Other(position), positions)
    else
      positions + [position]
  }

  /** Toggling never introduces a repeated position. */
  lemma ToggleKeepsDistinct(positions: seq<Position>, position: Position)
    requires Distinct(positions)
    ensures Distinct(TogglePosition(positions, position))
  {
    if position in positions {
      FilterKeepsDistinct(Other(position), positions);
    } else {
      var r := positions + [position];
      forall i, j | 0 <= i < j < |r| ensures r[i] != r[j] {
        if j == |positions| {
          assert r[i] in positions;
        }
      }
    }
  }

  /** A form without repeated positions holds at most the four positions there are. */
  lemma DistinctPositionsAtMostFour(positions: seq<Position>)
    requires Distinct(positions)
    ensures |positions| <= 4
  {
    DistinctCardinality(positions);
    var all := {Goalkeeper, Defender, Midfielder, Forward};
    forall q | q in positions ensures q in all {
      match q
      case Goalkeeper =>
      case Defender =>
      case Midfielder =>
      case Forward =>
    }
    var listed := set x | x in positions;
    assert all == listed + (all - listed);
    assert |all| == 4;
  }

  /** The positions after clicking the buttons in `clicks` order, starting from `positions`. */
  function ToggleAll(positions: seq<Position>, clicks: seq<Position>): seq<Position>
    decreases |clicks|
  {
    if |clicks| == 0 then positions else ToggleAll(TogglePosition(positions, clicks[0]), clicks[1..])
  }

  /**
   * However the buttons are clicked, a list without repeats (such as the
   * empty list the form opens with) never gains one, and never holds more
   * than four positions.
   */
  lemma {:induction false} ClicksKeepPositionsDistinct(positions: seq<Position>, clicks: seq<Position>)
    requires Distinct(positions)
    ensures Distinct(ToggleAll(positions, clicks)) && |ToggleAll(positions, clicks)| <= 4
    decreases |clicks|
  {
    if |clicks| == 0 {
      DistinctPositionsAtMostFour(positions);
    } else {
      ToggleKeepsDistinct(positions, clicks[0]);
      ClicksKeepPositionsDistinct(TogglePosition(positions, clicks[0]), clicks[1..]);
    }
  }

  /** Toggling an unlisted position twice gives back the same list. */
  lemma {:induction false} ToggleTwiceRestores(positions: seq<Position>, position: Position)
    requires position !in positions
    ensures TogglePosition(TogglePosition(positions, position), position) == positions
  {
    FilterAppend(Other(position), positions, [position]);
    FilterKeepsAll(Other(position), positions);
    FilterDropsAll(Other(position), [position]);
  }

  /** Toggling a listed position twice moves it to the end, after the others in their order. */
  lemma {:induction false} ToggleTwiceMovesLast(positions: seq<Position>, position: Position)
    requires position in positions
    ensures TogglePosition(TogglePosition(positions, position), position)
            == Filter(Other(position), positions) + [position]
  {
    FilterMembers(Other(position), positions);
  }

  /**
   * The characters `String.prototype.trim` strips: the ECMAScript WhiteSpace
   * and LineTerminator code points.
   */
  predicate IsWhiteSpace(c: char) {
    var n := c as int;
    n == 0x09 || n == 0x0A || n == 0x0B || n == 0x0C || n == 0x0D || n == 0x20
    || n == 0xA0 || n == 0x1680 || (0x2000 <= n <= 0x200A) || n == 0x2028 || n == 0x2029
    || n == 0x202F || n == 0x205F || n == 0x3000 || n == 0xFEFF
  }

  predicate AllWhiteSpace(s: string) {
    forall i :: 0 <= i < |s| ==> IsWhiteSpace(s[i])
  }

  /** Drops the leading white space: what remains is a suffix that starts with a visible character. */
  function TrimStart(s: string): (r: string)
    ensures |r| <= |s| && r == s[|s| - |r|..]
    ensures AllWhiteSpace(s[..|s| - |r|])
    ensures |r| > 0 ==> !IsWhiteSpace(r[0])
    decreases |s|
  {
    if |s| > 0 && IsWhiteSpace(s[0]) then
      var r := TrimStart(s[1..]);
      assert s[1..][..|s| - 1 - |r|] == s[1..|s| - |r|];
      r
    else s
  }

  /** Drops the trailing white space: what remains is a prefix that ends with a visible character. */
  function TrimEnd(s: string): (r: string)
    ensures |r| <= |s| && r == s[..|r|]
    ensures AllWhiteSpace(s[|r|..])
    ensures |r| > 0 ==> !IsWhiteSpace(r[|r| - 1])
    decreases |s|
  {
    if |s| > 0 && IsWhiteSpace(s[|s| - 1]) then
      var r := TrimEnd(s[..|s| - 1]);
      assert s[..|s| - 1][|r|..] + [s[|s| - 1]] == s[|r|..];
      r
    else s
  }

  /** `String.prototype.trim`. */
  function Trim(s: string): string {
    TrimEnd(TrimStart(s))
  }

  /** The trimmed name is empty exactly when the name is all white space (`!name.trim()`). */
  lemma TrimEmptyIffBlank(s: string)
    ensures Trim(s) == [] <==> AllWhiteSpace(s)
  {
    var t := TrimStart(s);
    if Trim(s) == [] {
      assert AllWhiteSpace(t[0..]);
      assert s == s[..|s| - |t|] + t;
    }
  }

  /**
   * The trimmed name is a stretch of the original with only white space cut
   * off on either side, and it neither starts nor ends with white space.
   */
  lemma TrimShape(s: string)
    ensures exists a, b :: 0 <= a <= b <= |s| && Trim(s) == s[a..b]
              && AllWhiteSpace(s[..a]) && AllWhiteSpace(s[b..])
    ensures |Trim(s)| > 0 ==> !IsWhiteSpace(Trim(s)[0]) && !IsWhiteSpace(Trim(s)[|Trim(s)| - 1])
  {
    var t := TrimStart(s);
    var r := TrimEnd(t);
    var a := |s| - |t|;
    var b := a + |r|;
    assert r == s[a..b];
    assert s[b..] == t[|r|..];
    if |r| > 0 {
      assert r[0] == t[0];
    }
  }

  /** Trimming twice is trimming once. */
  lemma TrimIdempotent(s: string)
    ensures Trim(Trim(s)) == Trim(s)
  {
    var t := TrimStart(s);
    var r := TrimEnd(t);
    if |r| > 0 {
      assert r[0] == t[0];
    }
  }

  /** The modal's form: the ticked positions in ticking order, the slider's rating and the typed name. */
  datatype GuestForm = GuestForm(positions: seq<Position>, rating: real, name: string)

  /** The form as first opened and as left after a guest is added: nothing ticked, rating 7, no name. */
  const EmptyForm := GuestForm([], 7.0, "")

  /** The Add button's test: at least one position and a name that is not blank. */
  predicate CanAdd(form: GuestForm) {
    |form.positions| > 0 && Trim(form.name) != []
  }

  /**
   * `handleAddGuest`: an incomplete form is left as it is and nothing is
   * added; otherwise a selected guest is built from the form, with the
   * given id and the trimmed name, and the form is reset.
   */
  function AddGuest(form: GuestForm, id: string): (r: (GuestForm, Option<Player>))
    ensures r.1.None? <==> |form.positions| == 0 || AllWhiteSpace(form.name)
    ensures r.1.None? ==> r.0 == form
    ensures r.1.Some? ==> r.0 == EmptyForm
    ensures r.1.Some? ==>
      var guest := r.1.value;
      && guest.id == id
      && IsSelected(guest) && guest.isGuest == Some(true)
      && guest.positions == form.positions && guest.rating == form.rating
      && guest.name == Trim(form.name) && |guest.name| > 0
  {
    TrimEmptyIffBlank(form.name);
    if !CanAdd(form) then (form, None)
    else
      var guest := Player(id, Trim(form.name), form.positions, form.rating, Some(true), Some(true));
      (EmptyForm, Some(guest))
  }

  /**
   * A guest built from positions ticked one at a time from the empty form
   * lists each position once, so at most four, and its name has no white
   * space at either end.
   */
  lemma GuestIsWellFormed(form: GuestForm, id: string)
    requires Distinct(form.positions)
    requires AddGuest(form, id).1.Some?
    ensures var guest := AddGuest(form, id).1.value;
            && Distinct(guest.positions) && 1 <= |guest.positions| <= 4
            && !IsWhiteSpace(guest.name[0]) && !IsWhiteSpace(guest.name[|guest.name| - 1])
  {
    DistinctPositionsAtMostFour(form.positions);
    TrimShape(form.name);
  }

  /** Right after a guest is added the reset form cannot add another until filled in again. */
  lemma ResetFormCannotAdd(form: GuestForm, id: string, next: string)
    requires AddGuest(form, id).1.Some?
    ensures AddGuest(AddGuest(form, id).0, next) == (EmptyForm, None)
  {
  }
}

=== FILE: local_storage.dfy ===
/**
 * Persistence of the selection (src/app/lib/localStorage.ts). The browser
 * store is abstracted to the value it holds under the selection key: an
 * id list, or `None` when the key is missing, holds an empty string, does
 * not parse, or there is no browser window.
 */
module SelectionStore {
  import opened Types
  import opened Seqs

  type Store = Option<seq<string>>

  /** The id of each player, in roster order. */
  function Ids(players: seq<Player>): (ids: seq<string>)
    ensures |ids| == |players|
    ensures forall i :: 0 <= i < |players| ==> ids[i] == players[i].id
  {
    seq(|players|, i requires 0 <= i < |players| => players[i].id)
  }

  lemma {:induction false} IdsOfSubsequence(x: seq<Player>, y: seq<Player>)
    requires IsSubsequence(x, y)
    ensures IsSubsequence(Ids(x), Ids(y))
    decreases |y|
  {
    if |x| > 0 {
      assert Ids(y)[1..] == Ids(y[1..]);
      if x[0] == y[0] && IsSubsequence(x[1..], y[1..]) {
        IdsOfSubsequence(x[1..], y[1..]);
        assert Ids(x)[1..] == Ids(x[1..]);
      } else {
        IdsOfSubsequence(x, y[1..]);
      }
    }
  }

  /**
   * `saveSelectedPlayers`: the value written to the store is the ids of the
   * selected players, in roster order, and an id is written iff some
   * selected player carries it.
   */
  function SaveSelectedPlayers(players: seq<Player>): (stored: Store)
    ensures stored.Some?
    ensures IsSubsequence(stored.value, Ids(players))
    ensures forall id :: id in stored.value <==>
              exists i :: 0 <= i < |players| && players[i].id == id && IsSelected(players[i])
  {
    var chosen := Filter(IsSelected, players);
    FilterMembers(IsSelected, players);
    FilterIsSubsequence(IsSelected, players);
    IdsOfSubsequence(chosen, players);
    assert forall id :: id in Ids(chosen) ==> exists j :: 0 <= j < |chosen| && chosen[j].id == id;
    Some(Ids(chosen))
  }

  /** `loadSelectedPlayerIds`: the stored list, or no ids at all when the store holds nothing usable. */
  function LoadSelectedPlayerIds(store: Store): (ids: seq<string>)
    ensures store.None? ==> ids == []
  {
    match store
    case None => []
    case Some(saved) => saved
  }

  /**
   * `applySelectedStatus`: same players in the same order, each with its
   * `isSelected` flag set (never absent), true iff its id was loaded.
   */
  function ApplySelectedStatus(players: seq<Player>, store: Store): (r: seq<Player>)
    ensures |r| == |players|
    ensures forall i :: 0 <= i < |r| ==> SameExceptSelection(players[i], r[i]) && r[i].isSelected.Some?
    ensures forall i :: 0 <= i < |r| ==> (IsSelected(r[i]) <==> players[i].id in LoadSelectedPlayerIds(store))
  {
    var ids := LoadSelectedPlayerIds(store);
    seq(|players|, i requires 0 <= i < |players| => players[i].(isSelected := Some(players[i].id in ids)))
  }

  /** A missing or unreadable store deselects every player. */
  lemma MissingStoreDeselectsAll(players: seq<Player>)
    ensures forall i :: 0 <= i < |players| ==> ApplySelectedStatus(players, None)[i].isSelected == Some(false)
  {
  }

  /** Applying the same stored ids a second time changes nothing. */
  lemma ApplyIdempotent(players: seq<Player>, store: Store)
    ensures ApplySelectedStatus(ApplySelectedStatus(players, store), store) == ApplySelectedStatus(players, store)
  {
  }

  /** Every player carries a defined `isSelected` flag. */
  ghost predicate FlagsDefined(players: seq<Player>) {
    forall i :: 0 <= i < |players| ==> players[i].isSelected.Some?
  }

  /**
   * Round trip: with unique ids, loading what was saved from a roster gives
   * every player back its selection, an absent flag coming back as false;
   * so a roster whose flags are all defined comes back unchanged.
   */
  lemma SaveThenApplyRestores(players: seq<Player>)
    requires UniqueIds(players)
    ensures forall i :: 0 <= i < |players| ==>
              ApplySelectedStatus(players, SaveSelectedPlayers(players))[i]
              == players[i].(isSelected := Some(IsSelected(players[i])))
    ensures FlagsDefined(players) ==> ApplySelectedStatus(players, SaveSelectedPlayers(players)) == players
  {
    var r := ApplySelectedStatus(players, SaveSelectedPlayers(players));
    forall i | 0 <= i < |players|
      ensures r[i] == players[i].(isSelected := Some(IsSelected(players[i])))
    {
      if players[i].id in SaveSelectedPlayers(players).value {
        var j :| 0 <= j < |players| && players[j].id == players[i].id && IsSelected(players[j]);
        assert i == j;
      }
    }
    if FlagsDefined(players) {
      forall i | 0 <= i < |players|
        ensures r[i] == players[i]
      {
        var flag := players[i].isSelected;
        assert flag.Some?;
        if flag.value {
          assert IsSelected(players[i]);
        } else {
          assert flag == Some(false);
        }
      }
    }
  }
}

=== FILE: player_grid.dfy ===
/**
 * The roster filter of the selection grid
 * (src/app/components/PlayerSelection/PlayerGrid.tsx): a player is shown
 * when it passes the position filter and its name contains the search term,
 * both compared in lower case.
 */
module PlayerGrid {
  import opened Types
  import opened Seqs

  /** The position buttons: `All`, or one position. */
  datatype PositionFilter = All | Only(position: Position)

  /** Lower-casing of one character; only the ASCII capitals `A`-`Z` are mapped. */
  function LowerChar(c: char): (d: char)
    ensures !('A' <= d <= 'Z')
    ensures !('A' <= c <= 'Z') ==> d == c
    ensures 'A' <= c <= 'Z' ==> d as int - c as int == 32
  {
    if 'A' <= c <= 'Z' then (c as int + 32) as char else c
  }

  /** `toLowerCase`, character by character. */
  function Lower(s: string): (r: string)
    ensures |r| == |s|
    ensures forall i :: 0 <= i < |s| ==> r[i] == LowerChar(s[i])
  {
    seq(|s|, i requires 0 <= i < |s| => LowerChar(s[i]))
  }

  lemma LowerIdempotent(s: string)
    ensures Lower(Lower(s)) == Lower(s)
  {
  }

  lemma LowerAppend(a: string, b: string)
    ensures Lower(a + b) == Lower(a) + Lower(b)
  {
  }

  /** `String.prototype.includes`: `needle` occurs in `hay` starting at some offset. */
  predicate Includes(hay: string, needle: string)
    decreases |hay|
  {
    needle <= hay || (|hay| > 0 && Includes(hay[1..], needle))
  }

  /** `Includes` holds iff the needle is a prefix of some suffix of the hay (the empty needle always). */
  lemma {:induction false} IncludesAt(hay: string, needle: string)
    ensures Includes(hay, needle) <==> exists i :: 0 <= i <= |hay| && needle <= hay[i..]
    decreases |hay|
  {
    if needle <= hay {
      assert hay[0..] == hay;
    } else if |hay| > 0 {
      IncludesAt(hay[1..], needle);
      if exists i :: 0 <= i <= |hay| && needle <= hay[i..] {
        var i :| 0 <= i <= |hay| && needle <= hay[i..];
        assert i > 0;
        assert hay[1..][i - 1..] == hay[i..];
      }
      if Includes(hay[1..], needle) {
        var i :| 0 <= i <= |hay[1..]| && needle <= hay[1..][i..];
        assert hay[1..][i..] == hay[i + 1..];
      }
    } else {
      assert forall i :: 0 <= i <= |hay| ==> hay[i..] == [];
    }
  }

  /** A hay that contains a longer needle contains each prefix of it. */
  lemma {:induction false} IncludesPrefix(hay: string, needle: string, more: string)
    requires Includes(hay, needle + more)
    ensures Includes(hay, needle)
    decreases |hay|
  {
    if !(needle + more <= hay) {
      IncludesPrefix(hay[1..], needle, more);
    }
  }

  /** The position test: `All`, or the position is one of the player's positions (anywhere in the list). */
  predicate MatchesPosition(filter: PositionFilter, p: Player) {
    filter.All? || HasPosition(p, filter.position)
  }

  /** The search test: the lower-cased name contains the lower-cased term. */
  predicate MatchesSearch(term: string, p: Player) {
    Includes(Lower(p.name), Lower(term))
  }

  /** The test `players.filter` applies. */
  function Matches(filter: PositionFilter, term: string): Player -> bool {
    p => MatchesPosition(filter, p) && MatchesSearch(term, p)
  }

  /** `filteredPlayers`. */
  function FilteredPlayers(players: seq<Player>, filter: PositionFilter, term: string): seq<Player> {
    Filter(Matches(filter, term), players)
  }

  /**
   * The grid shows, in roster order, exactly the players that pass both
   * tests: each shown player is on the roster, has the chosen position and
   * contains the term at some offset of its lower-cased name.
   */
  lemma FilteredPlayersExact(players: seq<Player>, filter: PositionFilter, term: string)
    ensures IsSubsequence(FilteredPlayers(players, filter, term), players)
    ensures forall p :: p in FilteredPlayers(players, filter, term) <==>
              && p in players
              && (filter.Only? ==> filter.position in p.positions)
              && exists i :: 0 <= i <= |p.name| && Lower(term) <= Lower(p.name)[i..]
  {
    FilterIsSubsequence(Matches(filter, term), players);
    FilterMembers(Matches(filter, term), players);
    forall p: Player ensures MatchesSearch(term, p) <==>
      exists i :: 0 <= i <= |p.name| && Lower(term) <= Lower(p.name)[i..]
    {
      IncludesAt(Lower(p.name), Lower(term));
    }
  }

  /** With `All` and an empty search box the whole roster is shown, in order. */
  lemma NoFilterShowsAll(players: seq<Player>)
    ensures FilteredPlayers(players, All, "") == players
  {
    FilterKeepsAll(Matches(All, ""), players);
  }

  /** Typing more of the search term can only hide players, never reveal or reorder them. */
  lemma LongerTermNarrows(players: seq<Player>, filter: PositionFilter, term: string, more: string)
    ensures IsSubsequence(FilteredPlayers(players, filter, term + more), FilteredPlayers(players, filter, term))
  {
    forall p: Player | Matches(filter, term + more)(p)
      ensures Matches(filter, term)(p)
    {
      LowerAppend(term, more);
      IncludesPrefix(Lower(p.name), Lower(term), Lower(more));
    }
    FilterStricter(Matches(filter, term + more), Matches(filter, term), players);
  }

  /**
   * Choosing a position shows a subsequence of what `All` shows for the
   * same term, and never a player lacking that position.
   */
  lemma PositionNarrows(players: seq<Player>, position: Position, term: string)
    ensures IsSubsequence(FilteredPlayers(players, Only(position), term), FilteredPlayers(players, All, term))
    ensures forall p :: p in FilteredPlayers(players, Only(position), term) ==> position in p.positions
  {
    FilterStricter(Matches(Only(position), term), Matches(All, term), players);
    FilterMembers(Matches(Only(position), term), players);
  }

  /** The search ignores the case of the term's ASCII letters. */
  lemma SearchIgnoresCase(players: seq<Player>, filter: PositionFilter, term: string)
    ensures FilteredPlayers(players, filter, Lower(term)) == FilteredPlayers(players, filter, term)
  {
    LowerIdempotent(term);
    FilterSameTest(Matches(filter, Lower(term)), Matches(filter, term), players);
  }
}

=== FILE: player_selection.dfy ===
/**
 * The selection screen's state transforms
 * (src/app/components/PlayerSelection/index.tsx): selecting one player,
 * Select All, Clear All, the selected count and the list handed to team
 * generation. Every change is followed by a save, so the screen's state
 * is the roster together with what the store holds.
 */
module PlayerSelection {
  import opened Types
  import opened Seqs
  import opened SelectionStore
  import opened TeamBalancer

  /** The roster on screen and the value the store holds. */
  datatype Selection = Selection(players: seq<Player>, store: Store)

  /** The roster as first shown: the initial players with the stored selection applied (no save yet). */
  function LoadSelection(initial: seq<Player>, store: Store): (st: Selection)
    ensures |st.players| == |initial| && st.store == store
    ensures FlagsDefined(st.players)
  {
    Selection(ApplySelectedStatus(initial, store), store)
  }

  /** The map in `handleSelectPlayer`: the player(s) with this id get the new flag; nobody else changes. */
  function SetSelected(players: seq<Player>, id: string, selected: bool): (r: seq<Player>)
    ensures |r| == |players|
    ensures forall i :: 0 <= i < |r| && players[i].id == id ==>
              SameExceptSelection(players[i], r[i]) && r[i].isSelected == Some(selected)
    ensures forall i :: 0 <= i < |r| && players[i].id != id ==> r[i] == players[i]
  {
    seq(|players|, i requires 0 <= i < |players| =>
      if players[i].id == id then players[i].(isSelected := Some(selected)) else players[i])
  }

  /** Select All: every flag becomes true; nothing else changes. */
  function SelectAll(players: seq<Player>): (r: seq<Player>)
    ensures |r| == |players|
    ensures forall i :: 0 <= i < |r| ==> SameExceptSelection(players[i], r[i]) && IsSelected(r[i])
  {
    seq(|players|, i requires 0 <= i < |players| => players[i].(isSelected := Some(true)))
  }

  /** Clear All: every flag becomes false; nothing else changes. */
  function ClearAll(players: seq<Player>): (r: seq<Player>)
    ensures |r| == |players|
    ensures forall i :: 0 <= i < |r| ==> SameExceptSelection(players[i], r[i]) && r[i].isSelected == Some(false)
  {
    seq(|players|, i requires 0 <= i < |players| => players[i].(isSelected := Some(false)))
  }

  /** `handleSelectPlayer`: update the roster, then save it. */
  function HandleSelectPlayer(st: Selection, id: string, selected: bool): Selection {
    var players := SetSelected(st.players, id, selected);
    Selection(players, SaveSelectedPlayers(players))
  }

  function HandleSelectAll(st: Selection): Selection {
    var players := SelectAll(st.players);
    Selection(players, SaveSelectedPlayers(players))
  }

  function HandleClearAll(st: Selection): Selection {
    var players := ClearAll(st.players);
    Selection(players, SaveSelectedPlayers(players))
  }

  /** The players handed to team generation: the selected ones, in roster order. */
  function SelectedPlayers(players: seq<Player>): seq<Player> {
    Filter(IsSelected, players)
  }

  /** `selectedCount`. */
  function SelectedCount(players: seq<Player>): nat {
    |SelectedPlayers(players)|
  }

  /** The generation list is exactly the selected players, as a subsequence of the roster. */
  lemma {:induction false} SelectedPlayersExact(players: seq<Player>)
    ensures IsSubsequence(SelectedPlayers(players), players)
    ensures forall p :: p in SelectedPlayers(players) <==> p in players && IsSelected(p)
    ensures SelectedCount(players) <= |players|
  {
    FilterIsSubsequence(IsSelected, players);
    FilterMembers(IsSelected, players);
  }

  /** After Select All every player counts as selected; after Clear All none does. */
  lemma SelectAllClearAllCounts(players: seq<Player>)
    ensures SelectedCount(SelectAll(players)) == |players|
    ensures SelectedPlayers(SelectAll(players)) == SelectAll(players)
    ensures SelectedCount(ClearAll(players)) == 0
  {
    FilterKeepsAll(IsSelected, SelectAll(players));
    FilterDropsAll(IsSelected, ClearAll(players));
  }

  /**
   * After `handleSelectPlayer` the chosen id is saved iff the new flag is
   * true and some player on the roster carries it. An unknown id is never
   * saved and leaves the roster as it is; when the store was already in
   * step with the roster, the whole screen state is unchanged.
   */
  lemma SelectPlayerSavesChosen(st: Selection, id: string, selected: bool)
    ensures id in HandleSelectPlayer(st, id, selected).store.value <==>
              selected && exists i :: 0 <= i < |st.players| && st.players[i].id == id
    ensures (forall i :: 0 <= i < |st.players| ==> st.players[i].id != id) ==>
              HandleSelectPlayer(st, id, selected).players == st.players
    ensures (forall i :: 0 <= i < |st.players| ==> st.players[i].id != id) && Persisted(st) ==>
              HandleSelectPlayer(st, id, selected) == st
  {
    var next := SetSelected(st.players, id, selected);
    if selected && exists i :: 0 <= i < |st.players| && st.players[i].id == id {
      var i :| 0 <= i < |st.players| && st.players[i].id == id;
      assert next[i].id == id && IsSelected(next[i]);
    }
  }

  /**
   * `handleSelectPlayer` saves every other id exactly when saving the roster
   * before the change would have saved it. When the store was already in
   * step with the roster, that is exactly when the store held it.
   */
  lemma SelectPlayerKeepsOthers(st: Selection, id: string, selected: bool, other: string)
    requires other != id
    ensures other in HandleSelectPlayer(st, id, selected).store.value
            <==> other in SaveSelectedPlayers(st.players).value
    ensures Persisted(st) ==>
              (other in HandleSelectPlayer(st, id, selected).store.value <==> other in st.store.value)
  {
    var next := SetSelected(st.players, id, selected);
    if other in SaveSelectedPlayers(st.players).value {
      var j :| 0 <= j < |st.players| && st.players[j].id == other && IsSelected(st.players[j]);
      assert next[j] == st.players[j];
    }
    if other in SaveSelectedPlayers(next).value {
      var j :| 0 <= j < |next| && next[j].id == other && IsSelected(next[j]);
      assert next[j] == st.players[j];
    }
  }

  /** The store is in step with the roster: it holds what saving the roster writes. */
  ghost predicate Persisted(st: Selection) {
    st.store == SaveSelectedPlayers(st.players)
  }

  /** A roster with unique ids and defined flags, saved, comes back unchanged on reload. */
  ghost predicate Restorable(st: Selection) {
    && Persisted(st)
    && UniqueIds(st.players)
    && FlagsDefined(st.players)
    && ApplySelectedStatus(st.players, st.store) == st.players
  }

  /** Saving a roster whose ids are unique and whose flags are defined makes it restorable. */
  lemma SavedRosterRestorable(players: seq<Player>)
    requires UniqueIds(players) && FlagsDefined(players)
    ensures Restorable(Selection(players, SaveSelectedPlayers(players)))
  {
    SaveThenApplyRestores(players);
  }

  /**
   * Each handler keeps ids unique and flags defined and saves what it shows,
   * so applying the store to the roster on screen gives it back unchanged
   * (`ReloadRestoresScreen` carries this over to the initial roster).
   */
  lemma HandlersPersistSelection(st: Selection, id: string, selected: bool)
    requires UniqueIds(st.players) && FlagsDefined(st.players)
    ensures Restorable(HandleSelectPlayer(st, id, selected))
    ensures Restorable(HandleSelectAll(st))
    ensures Restorable(HandleClearAll(st))
  {
    var one, all, none := SetSelected(st.players, id, selected), SelectAll(st.players), ClearAll(st.players);
    assert forall i :: 0 <= i < |st.players| ==> one[i].id == st.players[i].id;
    assert forall i :: 0 <= i < |st.players| ==> all[i].id == st.players[i].id;
    assert forall i :: 0 <= i < |st.players| ==> none[i].id == st.players[i].id;
    SavedRosterRestorable(one);
    SavedRosterRestorable(all);
    SavedRosterRestorable(none);
  }

  /**
   * A reload applies the store to the initial roster, not to the roster on
   * screen. When the screen shows the initial players with only their
   * selection changed and its state is restorable, the reload reproduces
   * exactly the roster on screen.
   */
  lemma ReloadRestoresScreen(initial: seq<Player>, st: Selection)
    requires |initial| == |st.players|
    requires forall i :: 0 <= i < |initial| ==> SameExceptSelection(initial[i], st.players[i])
    requires Restorable(st)
    ensures LoadSelection(initial, st.store).players == st.players
  {
    var loaded := ApplySelectedStatus(initial, st.store);
    var again := ApplySelectedStatus(st.players, st.store);
    forall i | 0 <= i < |initial| ensures loaded[i] == st.players[i] {
      assert initial[i].id == st.players[i].id;
      assert again[i] == st.players[i];
    }
  }

  /**
   * The first load does not save, so the store may still hold ids of
   * players that are not on the roster. The first click on a player
   * rewrites the store from the roster and so drops every such id.
   */
  lemma FirstSaveDropsUnlistedIds(initial: seq<Player>, store: Store, id: string, selected: bool, other: string)
    requires forall i :: 0 <= i < |initial| ==> initial[i].id != other
    ensures other !in HandleSelectPlayer(LoadSelection(initial, store), id, selected).store.value
  {
    var shown := LoadSelection(initial, store).players;
    assert forall i :: 0 <= i < |shown| ==> shown[i].id == initial[i].id;
  }

  /**
   * The Generate Teams button is disabled below two selected players (and
   * the page's handler returns early in that case); otherwise the selected
   * players go to the balancer, which then never reports its error.
   */
  function GenerateTeams(players: seq<Player>): (r: Option<(Team, Team)>)
    ensures r.Some? <==> SelectedCount(players) >= 2
    ensures r.Some? ==>
      multiset(r.value.0.players) + multiset(r.value.1.players) == multiset(SelectedPlayers(players))
  {
    if SelectedCount(players) < 2 then None
    else
      var result := BalanceTeams(SelectedPlayers(players));
      assert result.Success?;
      Some(result.value)
  }
}

=== FILE: seqs.dfy ===
/**
 * Sequence helpers shared by every component: `Array.prototype.filter`
 * and the subsequence and interleaving relations used to state what the
 * filters and the team builder keep.
 */
module Seqs {

  /** `x` can be obtained from `y` by deleting elements, keeping the order of the rest. */
  ghost predicate IsSubsequence<T>(x: seq<T>, y: seq<T>)
    decreases |y|
  {
    |x| == 0 || (|y| > 0 && ((x[0] == y[0] && IsSubsequence(x[1..], y[1..])) || IsSubsequence(x, y[1..])))
  }

  /** `q` is a merge of `x` and `y`: every element of `q` is taken, in order, from the front of one of them. */
  ghost predicate Interleaves<T>(q: seq<T>, x: seq<T>, y: seq<T>)
    decreases |q|
  {
    if |q| == 0 then |x| == 0 && |y| == 0
    else
      (|x| > 0 && x[0] == q[0] && Interleaves(q[1..], x[1..], y))
      || (|y| > 0 && y[0] == q[0] && Interleaves(q[1..], x, y[1..]))
  }

  lemma {:induction false} SubsequenceTransitive<T>(x: seq<T>, y: seq<T>, z: seq<T>)
    requires IsSubsequence(x, y) && IsSubsequence(y, z)
    ensures IsSubsequence(x, z)
    decreases |z|
  {
    if |x| > 0 {
      if IsSubsequence(y, z[1..]) {
        SubsequenceTransitive(x, y, z[1..]);
      } else if x[0] == y[0] && IsSubsequence(x[1..], y[1..]) {
        SubsequenceTransitive(x[1..], y[1..], z[1..]);
      } else {
        SubsequenceTransitive(x, y[1..], z[1..]);
      }
    }
  }

  /** The elements of `s` that satisfy `f`, in their original order. */
  function Filter<T(!new)>(f: T -> bool, s: seq<T>): (r: seq<T>)
    ensures |r| <= |s|
    ensures forall i :: 0 <= i < |r| ==> f(r[i])
    decreases |s|
  {
    if |s| == 0 then []
    else
      var rest := Filter(f, s[1..]);
      if f(s[0]) then [s[0]] + rest else rest
  }

  /** The filter keeps exactly the elements that pass the test. */
  lemma {:induction false} FilterMembers<T(!new)>(f: T -> bool, s: seq<T>)
    ensures forall x :: x in Filter(f, s) <==> x in s && f(x)
    decreases |s|
  {
    if |s| > 0 {
      FilterMembers(f, s[1..]);
      assert s == [s[0]] + s[1..];
    }
  }

  /** Each passing element is kept as often as it occurs; every other element is dropped. */
  lemma {:induction false} FilterCounts<T(!new)>(f: T -> bool, s: seq<T>)
    ensures forall x :: multiset(Filter(f, s))[x] == if f(x) then multiset(s)[x] else 0
    decreases |s|
  {
    if |s| > 0 {
      FilterCounts(f, s[1..]);
      assert s == [s[0]] + s[1..];
    }
  }

  /** The filter keeps the relative order of what it keeps. */
  lemma {:induction false} FilterIsSubsequence<T(!new)>(f: T -> bool, s: seq<T>)
    ensures IsSubsequence(Filter(f, s), s)
    decreases |s|
  {
    if |s| > 0 {
      FilterIsSubsequence(f, s[1..]);
      var rest := Filter(f, s[1..]);
      if f(s[0]) {
        assert ([s[0]] + rest)[1..] == rest;
      }
    }
  }

  /** Filtering a sequence that starts with `a` decides `a` first, then filters the rest. */
  lemma FilterCons<T(!new)>(f: T -> bool, a: T, t: seq<T>)
    ensures Filter(f, [a] + t) == (if f(a) then [a] else []) + Filter(f, t)
  {
    assert ([a] + t)[1..] == t;
  }

  /** A filter and its complement split `s` into two parts that together hold every element once. */
  lemma FilterPartition<T(!new)>(f: T -> bool, g: T -> bool, s: seq<T>)
    requires forall x :: g(x) == !f(x)
    ensures multiset(Filter(f, s)) + multiset(Filter(g, s)) == multiset(s)
  {
    FilterCounts(f, s);
    FilterCounts(g, s);
    var a, b := multiset(Filter(f, s)), multiset(Filter(g, s));
    assert forall x :: (a + b)[x] == multiset(s)[x];
  }

  /** Filtering two orderings of the same elements keeps the same elements. */
  lemma FilterPermutation<T(!new)>(f: T -> bool, s: seq<T>, t: seq<T>)
    requires multiset(s) == multiset(t)
    ensures multiset(Filter(f, s)) == multiset(Filter(f, t))
  {
    FilterCounts(f, s);
    FilterCounts(f, t);
    var a, b := multiset(Filter(f, s)), multiset(Filter(f, t));
    assert forall x :: a[x] == b[x];
  }

  /** A filter that keeps every element returns its input unchanged. */
  lemma {:induction false} FilterKeepsAll<T(!new)>(f: T -> bool, s: seq<T>)
    requires forall i :: 0 <= i < |s| ==> f(s[i])
    ensures Filter(f, s) == s
    decreases |s|
  {
    if |s| > 0 {
      FilterKeepsAll(f, s[1..]);
    }
  }

  /** A filter that keeps nothing returns the empty sequence. */
  lemma {:induction false} FilterDropsAll<T(!new)>(f: T -> bool, s: seq<T>)
    requires forall i :: 0 <= i < |s| ==> !f(s[i])
    ensures Filter(f, s) == []
    decreases |s|
  {
    if |s| > 0 {
      FilterDropsAll(f, s[1..]);
    }
  }

  /** A stricter test keeps a subsequence of what a looser test keeps. */
  lemma {:induction false} FilterStricter<T(!new)>(f: T -> bool, g: T -> bool, s: seq<T>)
    requires forall x :: f(x) ==> g(x)
    ensures IsSubsequence(Filter(f, s), Filter(g, s))
    decreases |s|
  {
    if |s| > 0 {
      FilterStricter(f, g, s[1..]);
      var fs, gs := Filter(f, s[1..]), Filter(g, s[1..]);
      if f(s[0]) {
        assert ([s[0]] + fs)[1..] == fs;
        assert ([s[0]] + gs)[1..] == gs;
      } else if g(s[0]) {
        assert ([s[0]] + gs)[1..] == gs;
      }
    }
  }

  /** Two tests that agree on every element filter alike. */
  lemma {:induction false} FilterSameTest<T(!new)>(f: T -> bool, g: T -> bool, s: seq<T>)
    requires forall x :: f(x) == g(x)
    ensures Filter(f, s) == Filter(g, s)
    decreases |s|
  {
    if |s| > 0 {
      FilterSameTest(f, g, s[1..]);
    }
  }

  /** Filtering a concatenation filters each part. */
  lemma {:induction false} FilterAppend<T(!new)>(f: T -> bool, a: seq<T>, b: seq<T>)
    ensures Filter(f, a + b) == Filter(f, a) + Filter(f, b)
    decreases |a|
  {
    if |a| > 0 {
      FilterAppend(f, a[1..], b);
      assert (a + b)[1..] == a[1..] + b;
    } else {
      assert a + b == b;
    }
  }

  /** No element occurs twice. */
  ghost predicate Distinct<T>(s: seq<T>) {
    forall i, j :: 0 <= i < j < |s| ==> s[i] != s[j]
  }

  /** Filtering a sequence without repeats gives one without repeats. */
  lemma {:induction false} FilterKeepsDistinct<T(!new)>(f: T -> bool, s: seq<T>)
    requires Distinct(s)
    ensures Distinct(Filter(f, s))
    decreases |s|
  {
    if |s| > 0 {
      FilterKeepsDistinct(f, s[1..]);
      FilterMembers(f, s[1..]);
      var rest := Filter(f, s[1..]);
      if f(s[0]) {
        assert s[0] !in s[1..];
        var r := [s[0]] + rest;
        forall i, j | 0 <= i < j < |r| ensures r[i] != r[j] {
          if i > 0 {
            assert r[i] == rest[i - 1] && r[j] == rest[j - 1];
          } else {
            assert r[j] == rest[j - 1];
            assert r[j] in rest;
          }
        }
      }
    }
  }

  /** A sequence without repeats has as many distinct elements as entries. */
  lemma {:induction false} DistinctCardinality<T>(s: seq<T>)
    requires Distinct(s)
    ensures |set x | x in s| == |s|
    decreases |s|
  {
    if |s| > 0 {
      DistinctCardinality(s[1..]);
      assert s[0] !in s[1..];
      assert (set x | x in s) == {s[0]} + (set x | x in s[1..]);
    } else {
      assert (set x | x in s) == {};
    }
  }

  /** The filter keeps everything iff every element passes, and nothing iff none does. */
  lemma {:induction false} FilterLength<T(!new)>(f: T -> bool, s: seq<T>)
    ensures |Filter(f, s)| == |s| <==> forall i :: 0 <= i < |s| ==> f(s[i])
    ensures |Filter(f, s)| == 0 <==> forall i :: 0 <= i < |s| ==> !f(s[i])
    decreases |s|
  {
    if |s| > 0 {
      FilterLength(f, s[1..]);
      assert forall i :: 1 <= i < |s| ==> s[i] == s[1..][i - 1];
    }
  }

  /** Interleaving neither adds nor loses elements. */
  lemma {:induction false} InterleavesMultiset<T>(q: seq<T>, x: seq<T>, y: seq<T>)
    requires Interleaves(q, x, y)
    ensures multiset(q) == multiset(x) + multiset(y)
    decreases |q|
  {
    if |q| > 0 {
      assert q == [q[0]] + q[1..];
      if |x| > 0 && x[0] == q[0] && Interleaves(q[1..], x[1..], y) {
        InterleavesMultiset(q[1..], x[1..], y);
        assert x == [x[0]] + x[1..];
      } else {
        InterleavesMultiset(q[1..], x, y[1..]);
        assert y == [y[0]] + y[1..];
      }
    }
  }
}

=== FILE: team_balancer.dfy ===
/**
 * The team balancer (src/app/lib/teamBalancer.ts): sort the selected
 * players by rating, split the two best goalkeepers between the teams,
 * then hand every remaining player, one at a time, to the team whose
 * current mean rating is lower (ties go to Team A), and finally record
 * each team's mean rating.
 */
module TeamBalancer {
  import opened Types
  import opened Seqs

  /** The single error the balancer raises: fewer than two players were given. */
  datatype BalanceError = InsufficientPlayers

  datatype Result<+T> = Success(value: T) | Failure(error: BalanceError)

  /** The two rosters while they are being built: Team A's and Team B's members in joining order. */
  datatype Lineup = Lineup(a: seq<Player>, b: seq<Player>)

  // ---------------------------------------------------------------------
  // Ratings

  function Sum(ps: seq<Player>): real
    decreases |ps|
  {
    if |ps| == 0 then 0.0 else ps[0].rating + Sum(ps[1..])
  }

  /** `getTeamRating`: the mean rating of a roster, 0 for an empty one. */
  function TeamRating(ps: seq<Player>): (mean: real)
    ensures |ps| == 0 ==> mean == 0.0
    ensures |ps| > 0 ==> mean * (|ps| as real) == Sum(ps)
  {
    if |ps| == 0 then 0.0 else Sum(ps) / (|ps| as real)
  }

  lemma {:induction false} SumBounds(ps: seq<Player>, lo: real, hi: real)
    requires forall i :: 0 <= i < |ps| ==> lo <= ps[i].rating <= hi
    ensures (|ps| as real) * lo <= Sum(ps) <= (|ps| as real) * hi
    decreases |ps|
  {
    if |ps| > 0 {
      SumBounds(ps[1..], lo, hi);
    }
  }

  /** A non-empty team's mean lies between its lowest and its highest rating. */
  lemma TeamRatingBounds(ps: seq<Player>, lo: real, hi: real)
    requires |ps| > 0
    requires forall i :: 0 <= i < |ps| ==> lo <= ps[i].rating <= hi
    ensures lo <= TeamRating(ps) <= hi
  {
    SumBounds(ps, lo, hi);
    var n := |ps| as real;
    assert Sum(ps) / n * n == Sum(ps);
  }

  // ---------------------------------------------------------------------
  // The descending, stable sort (`[...players].sort((a, b) => b.rating - a.rating)`)

  ghost predicate SortedByRating(s: seq<Player>) {
    forall i, j :: 0 <= i < j < |s| ==> s[i].rating >= s[j].rating
  }

  /** Places `p` in front of the first player rated no higher than it. */
  function InsertByRating(p: Player, s: seq<Player>): (r: seq<Player>)
    ensures |r| == |s| + 1
    ensures multiset(r) == multiset(s) + multiset{p}
    ensures r[0] == p || (|s| > 0 && r[0] == s[0])
    decreases |s|
  {
    if |s| == 0 then [p]
    else if p.rating >= s[0].rating then [p] + s
    else
      assert s == [s[0]] + s[1..];
      [s[0]] + InsertByRating(p, s[1..])
  }

  lemma {:induction false} InsertKeepsSorted(p: Player, s: seq<Player>)
    requires SortedByRating(s)
    ensures SortedByRating(InsertByRating(p, s))
    decreases |s|
  {
    if |s| > 0 && p.rating < s[0].rating {
      var rest := InsertByRating(p, s[1..]);
      InsertKeepsSorted(p, s[1..]);
      assert rest[0].rating <= s[0].rating;
      var r := [s[0]] + rest;
      forall i, j | 0 <= i < j < |r|
        ensures r[i].rating >= r[j].rating
      {
        assert r[j] == rest[j - 1];
        if i > 0 {
          assert r[i] == rest[i - 1];
        } else {
          assert rest[0].rating >= rest[j - 1].rating;
        }
      }
    }
  }

  /** Insertion sort, highest rating first; a player goes before later players of equal rating. */
  function SortByRating(s: seq<Player>): (r: seq<Player>)
    ensures |r| == |s|
    ensures multiset(r) == multiset(s)
    ensures SortedByRating(r)
    decreases |s|
  {
    if |s| == 0 then []
    else
      assert s == [s[0]] + s[1..];
      InsertKeepsSorted(s[0], SortByRating(s[1..]));
      InsertByRating(s[0], SortByRating(s[1..]))
  }

  /** Sorting a list that is already in rating order leaves it unchanged. */
  lemma {:induction false} SortKeepsSortedInput(s: seq<Player>)
    requires SortedByRating(s)
    ensures SortByRating(s) == s
    decreases |s|
  {
    if |s| > 0 {
      SortedTail(s);
      SortKeepsSortedInput(s[1..]);
      assert s == [s[0]] + s[1..];
    }
  }

  /** The players that carry rating `x`, in their order in `s`. */
  function WithRating(s: seq<Player>, x: real): seq<Player> {
    Filter(RatingIs(x), s)
  }

  function RatingIs(x: real): Player -> bool {
    (p: Player) => p.rating == x
  }

  lemma {:induction false} InsertKeepsTies(p: Player, s: seq<Player>, x: real)
    ensures WithRating(InsertByRating(p, s), x) == (if p.rating == x then [p] else []) + WithRating(s, x)
    decreases |s|
  {
    var f := RatingIs(x);
    if |s| == 0 {
      FilterCons(f, p, []);
    } else if p.rating >= s[0].rating {
      FilterCons(f, p, s);
    } else {
      InsertKeepsTies(p, s[1..], x);
      FilterCons(f, s[0], InsertByRating(p, s[1..]));
      FilterCons(f, s[0], s[1..]);
      assert s == [s[0]] + s[1..];
    }
  }

  /**
   * The sort is stable: for every rating, the players with that rating keep
   * their input order. With `SortedByRating` this pins the output down
   * completely, ties included (`StableSortIsSortByRating`).
   */
  lemma {:induction false} SortIsStable(s: seq<Player>, x: real)
    ensures WithRating(SortByRating(s), x) == WithRating(s, x)
    decreases |s|
  {
    if |s| > 0 {
      SortIsStable(s[1..], x);
      InsertKeepsTies(s[0], SortByRating(s[1..]), x);
      FilterCons(RatingIs(x), s[0], s[1..]);
      assert s == [s[0]] + s[1..];
    }
  }

  /** Every player in `s` is rated at most `v`. */
  ghost predicate RatedAtMost(s: seq<Player>, v: real) {
    forall i :: 0 <= i < |s| ==> s[i].rating <= v
  }

  lemma {:induction false} FilterRatedAtMost(f: Player -> bool, s: seq<Player>, v: real)
    requires RatedAtMost(s, v)
    ensures RatedAtMost(Filter(f, s), v)
    decreases |s|
  {
    if |s| > 0 {
      FilterRatedAtMost(f, s[1..], v);
    }
  }

  lemma SortedTail(s: seq<Player>)
    requires SortedByRating(s) && |s| > 0
    ensures SortedByRating(s[1..]) && RatedAtMost(s[1..], s[0].rating)
  {
    forall i | 0 <= i < |s| - 1
      ensures s[1..][i].rating <= s[0].rating
    {
      assert s[1..][i] == s[i + 1];
    }
  }

  /** Putting a player rated at least as high as everyone in a sorted list in front keeps it sorted. */
  lemma PrependSorted(p: Player, s: seq<Player>)
    requires SortedByRating(s) && RatedAtMost(s, p.rating)
    ensures SortedByRating([p] + s)
  {
    var r := [p] + s;
    forall i, j | 0 <= i < j < |r|
      ensures r[i].rating >= r[j].rating
    {
      assert r[j] == s[j - 1];
      if i > 0 {
        assert r[i] == s[i - 1];
      }
    }
  }

  /** Filtering a rating-sorted list keeps it sorted. */
  lemma {:induction false} FilterKeepsSorted(f: Player -> bool, s: seq<Player>)
    requires SortedByRating(s)
    ensures SortedByRating(Filter(f, s))
    decreases |s|
  {
    if |s| > 0 {
      SortedTail(s);
      FilterKeepsSorted(f, s[1..]);
      FilterRatedAtMost(f, s[1..], s[0].rating);
      if f(s[0]) {
        PrependSorted(s[0], Filter(f, s[1..]));
      }
    }
  }

  /** Players of equal rating in `s` are the same player. */
  ghost predicate RatingsDistinct(s: seq<Player>) {
    forall p, q :: p in s && q in s && p.rating == q.rating ==> p == q
  }

  lemma SortedHeadsAgree(x: seq<Player>, y: seq<Player>)
    requires SortedByRating(x) && SortedByRating(y)
    requires multiset(x) == multiset(y) && |x| > 0
    requires RatingsDistinct(x)
    ensures |y| > 0 && x[0] == y[0]
  {
    assert x[0] in multiset(y);
    var k :| 0 <= k < |y| && y[k] == x[0];
    assert y[0] in multiset(x);
    var m :| 0 <= m < |x| && x[m] == y[0];
    assert x[0].rating >= x[m].rating;
    assert y[0].rating >= y[k].rating;
  }

  /**
   * Two rating-sorted orderings of the same players are identical when no
   * two different players share a rating.
   */
  lemma {:induction false} SortedPermutationUnique(x: seq<Player>, y: seq<Player>)
    requires SortedByRating(x) && SortedByRating(y)
    requires multiset(x) == multiset(y)
    requires RatingsDistinct(x)
    ensures x == y
    decreases |x|
  {
    if |x| == 0 {
      assert |y| == |multiset(y)| == 0;
    } else {
      SortedHeadsAgree(x, y);
      var xs, ys := x[1..], y[1..];
      assert x == [x[0]] + xs;
      assert y == [x[0]] + ys;
      assert multiset(xs) == multiset(ys) by {
        assert multiset(x) == multiset{x[0]} + multiset(xs);
        assert multiset(y) == multiset{x[0]} + multiset(ys);
        assert multiset(xs) == multiset(x) - multiset{x[0]};
        assert multiset(ys) == multiset(y) - multiset{x[0]};
      }
      SortedTail(x);
      SortedTail(y);
      assert RatingsDistinct(xs) by {
        forall p | p in xs
          ensures p in x
        {
        }
      }
      SortedPermutationUnique(xs, ys);
    }
  }

  /** A sorted list with a player rated `v` on it has a player rated `v` first or a higher-rated one. */
  lemma SortedHeadOutranks(x: seq<Player>, v: real)
    requires SortedByRating(x) && WithRating(x, v) != []
    ensures |x| > 0 && x[0].rating >= v
  {
    FilterMembers(RatingIs(v), x);
    var p := WithRating(x, v)[0];
    assert p in x && p.rating == v;
  }

  /** Removing the head of a list only changes the players of the head's rating. */
  lemma TiesAfterHead(x: seq<Player>, v: real)
    requires |x| > 0
    ensures WithRating(x, v) == (if x[0].rating == v then [x[0]] else []) + WithRating(x[1..], v)
  {
    FilterCons(RatingIs(v), x[0], x[1..]);
    assert x == [x[0]] + x[1..];
  }

  /**
   * Two rating-sorted lists that list the players of every rating in the
   * same order are identical, ties included. Sortedness fixes where each
   * rating's block lies and the order within a block fixes the rest.
   */
  lemma {:induction false} SortedTiesUnique(x: seq<Player>, y: seq<Player>)
    requires SortedByRating(x) && SortedByRating(y)
    requires forall v :: WithRating(x, v) == WithRating(y, v)
    ensures x == y
    decreases |x| + |y|
  {
    if |x| > 0 {
      TiesAfterHead(x, x[0].rating);
      SortedHeadOutranks(y, x[0].rating);
      TiesAfterHead(y, y[0].rating);
      SortedHeadOutranks(x, y[0].rating);
      var r := x[0].rating;
      assert y[0].rating == r;
      TiesAfterHead(y, r);
      assert x[0] == WithRating(x, r)[0] == WithRating(y, r)[0] == y[0];
      forall v ensures WithRating(x[1..], v) == WithRating(y[1..], v) {
        TiesAfterHead(x, v);
        TiesAfterHead(y, v);
        var head := if r == v then [x[0]] else [];
        assert head + WithRating(x[1..], v) == head + WithRating(y[1..], v);
        assert WithRating(x[1..], v) == (head + WithRating(x[1..], v))[|head|..];
        assert WithRating(y[1..], v) == (head + WithRating(y[1..], v))[|head|..];
      }
      SortedTail(x);
      SortedTail(y);
      SortedTiesUnique(x[1..], y[1..]);
      assert x == [x[0]] + x[1..] && y == [y[0]] + y[1..];
    } else if |y| > 0 {
      TiesAfterHead(y, y[0].rating);
      SortedHeadOutranks(x, y[0].rating);
    }
  }

  /**
   * Any stable best-first sort of `s` — a rating-sorted list that keeps the
   * players of each rating in their input order — is exactly `SortByRating(s)`.
   */
  lemma StableSortIsSortByRating(s: seq<Player>, y: seq<Player>)
    requires SortedByRating(y)
    requires forall v :: WithRating(y, v) == WithRating(s, v)
    ensures y == SortByRating(s)
  {
    forall v ensures WithRating(SortByRating(s), v) == WithRating(y, v) {
      SortIsStable(s, v);
    }
    SortedTiesUnique(SortByRating(s), y);
  }

  // ---------------------------------------------------------------------
  // Goalkeepers and the processing queue

  /** The goalkeeper-eligible players, highest rated first when `sorted` is sorted. */
  function Keepers(sorted: seq<Player>): seq<Player> {
    Filter(IsGoalkeeper, sorted)
  }

  function Outfielders(sorted: seq<Player>): seq<Player> {
    Filter(IsOutfielder, sorted)
  }

  /** The teams before the greedy loop: the two best keepers split, or a lone keeper in Team A. */
  function KeeperSplit(keepers: seq<Player>): (r: Lineup)
    ensures |r.a| <= 1 && |r.b| <= 1 && (|r.b| == 1 ==> |r.a| == 1)
    ensures r.a + r.b == keepers[..if |keepers| < 2 then |keepers| else 2]
  {
    if |keepers| >= 2 then Lineup([keepers[0]], [keepers[1]])
    else if |keepers| == 1 then Lineup([keepers[0]], [])
    else Lineup([], [])
  }

  /** Keepers beyond the first two, which join the queue after the outfielders. */
  function SurplusKeepers(keepers: seq<Player>): seq<Player> {
    if |keepers| > 2 then keepers[2..] else []
  }

  /** The order in which the greedy loop hands out players: outfielders first, then surplus keepers. */
  function ProcessingOrder(sorted: seq<Player>): (queue: seq<Player>)
    ensures Outfielders(sorted) <= queue
    ensures forall i :: |Outfielders(sorted)| <= i < |queue| ==> IsGoalkeeper(queue[i])
  {
    Outfielders(sorted) + SurplusKeepers(Keepers(sorted))
  }

  lemma KeeperSplitCovers(k: seq<Player>)
    ensures multiset(KeeperSplit(k).a) + multiset(KeeperSplit(k).b) + multiset(SurplusKeepers(k)) == multiset(k)
  {
    if |k| >= 2 {
      assert k == [k[0]] + [k[1]] + k[2..];
    } else if |k| == 1 {
      assert k == [k[0]];
    }
  }

  /** The keeper split and the queue together hold every sorted player exactly once. */
  lemma SplitCoversAll(sorted: seq<Player>)
    ensures var start := KeeperSplit(Keepers(sorted));
            multiset(start.a) + multiset(start.b) + multiset(ProcessingOrder(sorted)) == multiset(sorted)
  {
    FilterPartition(IsGoalkeeper, IsOutfielder, sorted);
    KeeperSplitCovers(Keepers(sorted));
  }

  // ---------------------------------------------------------------------
  // The greedy loop

  /**
   * One iteration: the player is appended to exactly one team, Team A iff
   * A's mean is not above B's; nothing already placed moves.
   */
  function Assign(l: Lineup, p: Player): (r: Lineup)
    ensures l.a <= r.a && l.b <= r.b && |r.a| + |r.b| == |l.a| + |l.b| + 1
    ensures (|r.a| > |l.a| <==> TeamRating(l.a) <= TeamRating(l.b))
    ensures (|r.a| > |l.a| ==> r.a[|l.a|] == p) && (|r.b| > |l.b| ==> r.b[|l.b|] == p)
  {
    if TeamRating(l.a) <= TeamRating(l.b) then Lineup(l.a + [p], l.b) else Lineup(l.a, l.b + [p])
  }

  /**
   * The loop `for (const player of queue)` as a left fold. Players already on
   * a team stay where they are; the queue is split between the two teams
   * and each team receives its share in queue order.
   */
  function Distribute(l: Lineup, queue: seq<Player>): (r: Lineup)
    ensures l.a <= r.a && l.b <= r.b
    ensures Interleaves(queue, r.a[|l.a|..], r.b[|l.b|..])
    decreases |queue|
  {
    if |queue| == 0 then l
    else
      var next := Assign(l, queue[0]);
      var r := Distribute(next, queue[1..]);
      assert r.a[|l.a|..] == if |next.a| > |l.a| then [queue[0]] + r.a[|next.a|..] else r.a[|next.a|..];
      assert r.b[|l.b|..] == if |next.b| > |l.b| then [queue[0]] + r.b[|next.b|..] else r.b[|next.b|..];
      r
  }

  /** The loop neither loses nor duplicates a player. */
  lemma DistributeCovers(l: Lineup, queue: seq<Player>)
    ensures multiset(Distribute(l, queue).a) + multiset(Distribute(l, queue).b)
            == multiset(l.a) + multiset(l.b) + multiset(queue)
  {
    var r := Distribute(l, queue);
    InterleavesMultiset(queue, r.a[|l.a|..], r.b[|l.b|..]);
    assert r.a == l.a + r.a[|l.a|..];
    assert r.b == l.b + r.b[|l.b|..];
  }

  /** Team B ends up with only players that were in it at the start or in the queue. */
  lemma {:induction false} DistributePreservesB(P: Player -> bool, l: Lineup, queue: seq<Player>)
    requires forall i :: 0 <= i < |l.b| ==> P(l.b[i])
    requires forall i :: 0 <= i < |queue| ==> P(queue[i])
    ensures forall i :: 0 <= i < |Distribute(l, queue).b| ==> P(Distribute(l, queue).b[i])
    decreases |queue|
  {
    if |queue| > 0 {
      DistributePreservesB(P, Assign(l, queue[0]), queue[1..]);
    }
  }

  lemma {:induction false} DistributeSnoc(l: Lineup, queue: seq<Player>, p: Player)
    ensures Distribute(l, queue + [p]) == Assign(Distribute(l, queue), p)
    decreases |queue|
  {
    if |queue| > 0 {
      assert (queue + [p])[1..] == queue[1..] + [p];
      DistributeSnoc(Assign(l, queue[0]), queue[1..], p);
    } else {
      assert [p][1..] == [];
    }
  }

  /**
   * The rule each iteration follows: with the teams as the first `k` players
   * left them, player `k` is appended to Team A when A's mean is at most B's
   * (an empty team counting as 0), and to Team B otherwise.
   */
  lemma DistributeStep(l: Lineup, queue: seq<Player>, k: nat)
    requires k < |queue|
    ensures var before := Distribute(l, queue[..k]);
            var after := Distribute(l, queue[..k + 1]);
            (TeamRating(before.a) <= TeamRating(before.b) ==> after == Lineup(before.a + [queue[k]], before.b))
            && (TeamRating(before.a) > TeamRating(before.b) ==> after == Lineup(before.a, before.b + [queue[k]]))
  {
    assert queue[..k + 1] == queue[..k] + [queue[k]];
    DistributeSnoc(l, queue[..k], queue[k]);
  }

  // ---------------------------------------------------------------------
  // balanceTeams

  /** A finished team: its average is recomputed from its final members. */
  function FinishTeam(id: string, name: string, ps: seq<Player>): Team {
    Team(id, name, ps, Some(TeamRating(ps)))
  }

  /** The two rosters `balanceTeams` builds from its input. */
  function BuildLineup(selected: seq<Player>): (r: Lineup)
    ensures multiset(r.a) + multiset(r.b) == multiset(selected)
  {
    var sorted := SortByRating(selected);
    var start := KeeperSplit(Keepers(sorted));
    var queue := ProcessingOrder(sorted);
    SplitCoversAll(sorted);
    DistributeCovers(start, queue);
    Distribute(start, queue)
  }

  /**
   * `balanceTeams`: fails below two players; otherwise returns `[A, B]`
   * whose rosters together are exactly the input players and whose
   * averages are the means of their final rosters.
   */
  function BalanceTeams(selected: seq<Player>): (r: Result<(Team, Team)>)
    ensures r.Failure? <==> |selected| < 2
    ensures r.Success? ==>
      && r.value.0.id == "A" && r.value.0.name == "Team A"
      && r.value.1.id == "B" && r.value.1.name == "Team B"
    ensures r.Success? ==> multiset(r.value.0.players) + multiset(r.value.1.players) == multiset(selected)
    ensures r.Success? ==>
      && r.value.0.averageRating == Some(TeamRating(r.value.0.players))
      && r.value.1.averageRating == Some(TeamRating(r.value.1.players))
  {
    if |selected| < 2 then Failure(InsufficientPlayers)
    else
      var l := BuildLineup(selected);
      Success((FinishTeam("A", "Team A", l.a), FinishTeam("B", "Team B", l.b)))
  }

  /**
   * The ordered goalkeepers are exactly the input's goalkeepers, best first:
   * every goalkeeper of the input appears among them, rated no higher than
   * the first.
   */
  lemma KeepersRanked(selected: seq<Player>)
    ensures var k := Keepers(SortByRating(selected));
            && multiset(k) == multiset(Filter(IsGoalkeeper, selected))
            && SortedByRating(k)
            && forall p :: p in selected && IsGoalkeeper(p) ==> p in k && p.rating <= k[0].rating
  {
    var sorted := SortByRating(selected);
    var k := Keepers(sorted);
    FilterPermutation(IsGoalkeeper, sorted, selected);
    FilterKeepsSorted(IsGoalkeeper, sorted);
    FilterMembers(IsGoalkeeper, sorted);
    forall p | p in selected && IsGoalkeeper(p)
      ensures p in k && p.rating <= k[0].rating
    {
      assert p in multiset(sorted);
      var i :| 0 <= i < |k| && k[i] == p;
    }
  }

  /**
   * The goalkeeper split: with two or more keepers, Team A opens with the
   * best and Team B with the second best; with one, Team A opens with it and
   * Team B receives only outfielders.
   */
  lemma BalanceSplitsKeepers(selected: seq<Player>)
    requires |selected| >= 2
    ensures var teams := BalanceTeams(selected).value;
            var k := Keepers(SortByRating(selected));
            && (|k| >= 2 ==> teams.0.players[0] == k[0] && teams.1.players[0] == k[1])
            && (|k| == 1 ==> teams.0.players[0] == k[0]
                             && forall i :: 0 <= i < |teams.1.players| ==> IsOutfielder(teams.1.players[i]))
  {
    var sorted := SortByRating(selected);
    var k := Keepers(sorted);
    BalanceFollowsQueue(selected);
    if |k| == 1 {
      var queue := ProcessingOrder(sorted);
      assert queue == Outfielders(sorted);
      DistributePreservesB(IsOutfielder, KeeperSplit(k), queue);
    }
  }

  /**
   * The opening keepers are the best ones: no goalkeeper of the input is
   * rated above Team A's opener, and no keeper after the first is rated
   * above Team B's.
   */
  lemma BalanceOpenersAreBest(selected: seq<Player>)
    requires |selected| >= 2
    ensures var teams := BalanceTeams(selected).value;
            var k := Keepers(SortByRating(selected));
            && (|k| >= 1 ==> forall p :: p in selected && IsGoalkeeper(p) ==> p.rating <= teams.0.players[0].rating)
            && (|k| >= 2 ==> forall i :: 1 <= i < |k| ==> k[i].rating <= teams.1.players[0].rating)
  {
    var k := Keepers(SortByRating(selected));
    KeepersRanked(selected);
    BalanceSplitsKeepers(selected);
    if |k| >= 2 {
      assert forall i :: 1 <= i < |k| ==> k[i].rating <= k[1].rating;
    }
  }

  /**
   * The queue the loop consumes: first every outfielder, best first, then
   * the keepers beyond the first two, best first and rated no higher than
   * Team B's opening keeper.
   */
  lemma ProcessingOrderShape(selected: seq<Player>)
    ensures var sorted := SortByRating(selected);
            var k := Keepers(sorted);
            var queue := ProcessingOrder(sorted);
            var n := |Outfielders(sorted)|;
            && n <= |queue|
            && multiset(queue[..n]) == multiset(Filter(IsOutfielder, selected))
            && SortedByRating(queue[..n])
            && |queue| - n == (if |k| > 2 then |k| - 2 else 0)
            && (forall i :: n <= i < |queue| ==> IsGoalkeeper(queue[i]) && queue[i].rating <= k[1].rating)
            && SortedByRating(queue[n..])
  {
    var sorted := SortByRating(selected);
    var k := Keepers(sorted);
    var queue := ProcessingOrder(sorted);
    var n := |Outfielders(sorted)|;
    assert queue[..n] == Outfielders(sorted);
    assert queue[n..] == SurplusKeepers(k);
    FilterPermutation(IsOutfielder, sorted, selected);
    FilterKeepsSorted(IsOutfielder, sorted);
    FilterKeepsSorted(IsGoalkeeper, sorted);
    forall i | n <= i < |queue|
      ensures IsGoalkeeper(queue[i]) && queue[i].rating <= k[1].rating
    {
      assert queue[i] == k[i - n + 2];
    }
    if |k| > 2 {
      SortedTail(k);
      SortedTail(k[1..]);
      assert k[1..][1..] == k[2..];
    }
  }

  /**
   * After the keeper split, each team receives its share of the queue in
   * queue order, by `DistributeStep`'s rule.
   */
  lemma BalanceFollowsQueue(selected: seq<Player>)
    requires |selected| >= 2
    ensures var teams := BalanceTeams(selected).value;
            var sorted := SortByRating(selected);
            var start := KeeperSplit(Keepers(sorted));
            var queue := ProcessingOrder(sorted);
            && teams.0.players == Distribute(start, queue).a
            && teams.1.players == Distribute(start, queue).b
            && start.a <= teams.0.players && start.b <= teams.1.players
            && Interleaves(queue, teams.0.players[|start.a|..], teams.1.players[|start.b|..])
  {
  }

  /**
   * Regeneration re-runs the balancer on a shuffled copy of the selection:
   * it still succeeds and still places every player exactly once, and when
   * no two different players share a rating the shuffle cannot change the
   * teams at all.
   */
  lemma RegenerateSameWhenRatingsDistinct(selected: seq<Player>, shuffled: seq<Player>)
    requires |selected| >= 2
    requires multiset(shuffled) == multiset(selected)
    ensures BalanceTeams(shuffled).Success?
    ensures multiset(BalanceTeams(shuffled).value.0.players) + multiset(BalanceTeams(shuffled).value.1.players)
            == multiset(selected)
    ensures RatingsDistinct(selected) ==> BalanceTeams(shuffled) == BalanceTeams(selected)
  {
    assert |shuffled| == |multiset(shuffled)| == |selected|;
    if RatingsDistinct(selected) {
      var x, y := SortByRating(selected), SortByRating(shuffled);
      forall p | p in x
        ensures p in selected
      {
        assert p in multiset(x);
      }
      SortedPermutationUnique(x, y);
    }
  }
}

=== FILE: team_card.dfy ===
/**
 * What a team's card shows (src/app/components/TeamGeneration/TeamCard.tsx):
 * the per-position counts, the average and the players grouped by
 * position.
 */
module TeamCard {
  import opened Types
  import opened Seqs
  import opened TeamBalancer

  /** The test `player.positions.includes(position)`. */
  function Lists(position: Position): Player -> bool {
    p => HasPosition(p, position)
  }

  /** The test `player.positions[0] === position`: the primary position. */
  function PrimaryIs(position: Position): Player -> bool {
    (p: Player) => |p.positions| > 0 && p.positions[0] == position
  }

  /** `countPositions`: how many players list the position, anywhere in their list. */
  function CountPositions(players: seq<Player>, position: Position): (n: nat)
    ensures n <= |players|
  {
    |Filter(Lists(position), players)|
  }

  /** The count is the full size exactly when everyone lists the position, and zero exactly when nobody does. */
  lemma CountPositionsExtremes(players: seq<Player>, position: Position)
    ensures CountPositions(players, position) == |players| <==>
              forall i :: 0 <= i < |players| ==> position in players[i].positions
    ensures CountPositions(players, position) == 0 <==>
              forall i :: 0 <= i < |players| ==> position !in players[i].positions
  {
    FilterLength(Lists(position), players);
  }

  /**
   * The counts of the two generated teams add up to the count over the
   * selected players: the split neither loses nor duplicates a position.
   */
  lemma BalancedCountsAddUp(selected: seq<Player>, position: Position)
    requires |selected| >= 2
    ensures var teams := BalanceTeams(selected).value;
            CountPositions(teams.0.players, position) + CountPositions(teams.1.players, position)
            == CountPositions(selected, position)
  {
    var teams := BalanceTeams(selected).value;
    var a, b := teams.0.players, teams.1.players;
    assert multiset(a + b) == multiset(selected);
    FilterPermutation(Lists(position), a + b, selected);
    FilterAppend(Lists(position), a, b);
    assert |multiset(Filter(Lists(position), a + b))| == |multiset(Filter(Lists(position), selected))|;
  }

  /** The goalkeeper section: every player who lists Goalkeeper anywhere. */
  function GoalkeeperGroup(players: seq<Player>): seq<Player> {
    Filter(Lists(Goalkeeper), players)
  }

  /**
   * The badges under an outfield heading: of the players listing the
   * position, those whose primary position it is.
   */
  function OutfieldGroup(players: seq<Player>, position: Position): seq<Player> {
    Filter(PrimaryIs(position), Filter(Lists(position), players))
  }

  /** An outfield heading is drawn when any player lists the position, even if none has it first. */
  predicate HeadingShown(players: seq<Player>, position: Position) {
    |Filter(Lists(position), players)| > 0
  }

  /**
   * Group membership: a player is under the goalkeeper heading iff it lists
   * Goalkeeper anywhere, and under an outfield heading iff that is its
   * primary position; groups keep the team's order.
   */
  lemma GroupMembership(players: seq<Player>, position: Position)
    requires position != Goalkeeper
    ensures IsSubsequence(GoalkeeperGroup(players), players)
    ensures IsSubsequence(OutfieldGroup(players, position), players)
    ensures forall p :: p in GoalkeeperGroup(players) <==> p in players && IsGoalkeeper(p)
    ensures forall p :: p in OutfieldGroup(players, position) <==>
              p in players && |p.positions| > 0 && p.positions[0] == position
  {
    var listing := Filter(Lists(position), players);
    FilterMembers(Lists(Goalkeeper), players);
    FilterMembers(Lists(position), players);
    FilterMembers(PrimaryIs(position), listing);
    FilterIsSubsequence(Lists(Goalkeeper), players);
    FilterIsSubsequence(PrimaryIs(position), listing);
    FilterIsSubsequence(Lists(position), players);
    SubsequenceTransitive(OutfieldGroup(players, position), listing, players);
  }

  /**
   * Each player with at least one position is drawn once or twice: under
   * its primary heading, and also under Goalkeeper when it lists Goalkeeper
   * as a secondary position. A player with no positions is not drawn.
   */
  lemma EveryPlayerDrawn(players: seq<Player>, p: Player)
    requires p in players
    ensures |p.positions| > 0 <==>
              p in GoalkeeperGroup(players)
              || exists pos :: pos != Goalkeeper && p in OutfieldGroup(players, pos)
    ensures (p in GoalkeeperGroup(players) && exists pos :: pos != Goalkeeper && p in OutfieldGroup(players, pos))
            <==> IsGoalkeeper(p) && p.positions[0] != Goalkeeper
  {
    GroupMembership(players, Defender);
    GroupMembership(players, Midfielder);
    GroupMembership(players, Forward);
    if |p.positions| > 0 && p.positions[0] != Goalkeeper {
      assert p in OutfieldGroup(players, p.positions[0]);
    }
    if |p.positions| > 0 && p.positions[0] == Goalkeeper {
      assert IsGoalkeeper(p);
    }
    if exists pos :: pos != Goalkeeper && p in OutfieldGroup(players, pos) {
      var pos :| pos != Goalkeeper && p in OutfieldGroup(players, pos);
      GroupMembership(players, pos);
    }
  }

  /**
   * A player listing Defender only as a secondary position makes the
   * Defender heading appear with no badge under it.
   */
  lemma SecondaryPositionShowsEmptyHeading()
    ensures var p := Player("p", "p", [Midfielder, Defender], 7.0, None, None);
            HeadingShown([p], Defender) && OutfieldGroup([p], Defender) == []
  {
    var p := Player("p", "p", [Midfielder, Defender], 7.0, None, None);
    assert p.positions[1] == Defender;
    FilterCons(Lists(Defender), p, []);
    FilterCons(PrimaryIs(Defender), p, []);
  }

  /**
   * The average shown: the stored average unless it is absent or zero, in
   * which case the mean is recomputed, an empty team showing 0.
   */
  function DisplayedAverage(team: Team): real {
    match team.averageRating
    case Some(avg) => if avg != 0.0 then avg else TeamRating(team.players)
    case None => TeamRating(team.players)
  }

  /**
   * The fallback: a stored non-zero average is shown as it is, even when it
   * is not the mean; an absent or zero one is replaced by the recomputed
   * mean, which is 0 for an empty team. So a team whose stored average is
   * absent, zero or the true mean shows the true mean.
   */
  lemma DisplayedAverageFallback(team: Team)
    ensures forall x :: team.averageRating == Some(x) && x != 0.0 ==> DisplayedAverage(team) == x
    ensures team.averageRating.None? || team.averageRating == Some(0.0)
            || team.averageRating == Some(TeamRating(team.players))
            ==> DisplayedAverage(team) == TeamRating(team.players)
    ensures |team.players| == 0 && (team.averageRating.None? || team.averageRating == Some(0.0))
            ==> DisplayedAverage(team) == 0.0
  {
  }

  /** Members drawn from a rated pool are rated within the pool's bounds. */
  lemma DrawnFromPool(part: seq<Player>, pool: seq<Player>, lo: real, hi: real)
    requires multiset(part) <= multiset(pool)
    requires forall i :: 0 <= i < |pool| ==> lo <= pool[i].rating <= hi
    ensures forall i :: 0 <= i < |part| ==> lo <= part[i].rating <= hi
  {
    forall i | 0 <= i < |part| ensures lo <= part[i].rating <= hi {
      assert part[i] in multiset(pool);
    }
  }

  /**
   * Every generated team shows the mean of its members' ratings, which lies
   * between the lowest and the highest rating on the team.
   */
  lemma GeneratedTeamsShowMean(selected: seq<Player>, lo: real, hi: real)
    requires |selected| >= 2
    requires forall i :: 0 <= i < |selected| ==> lo <= selected[i].rating <= hi
    ensures var teams := BalanceTeams(selected).value;
            && DisplayedAverage(teams.0) == TeamRating(teams.0.players)
            && DisplayedAverage(teams.1) == TeamRating(teams.1.players)
            && (|teams.0.players| > 0 ==> lo <= DisplayedAverage(teams.0) <= hi)
            && (|teams.1.players| > 0 ==> lo <= DisplayedAverage(teams.1) <= hi)
  {
    var teams := BalanceTeams(selected).value;
    var a, b := teams.0.players, teams.1.players;
    DisplayedAverageFallback(teams.0);
    DisplayedAverageFallback(teams.1);
    if |a| > 0 {
      DrawnFromPool(a, selected, lo, hi);
      TeamRatingBounds(a, lo, hi);
    }
    if |b| > 0 {
      DrawnFromPool(b, selected, lo, hi);
      TeamRatingBounds(b, lo, hi);
    }
  }
}

=== FILE: types.dfy ===
/**
 * The shared records of the squad maker: positions, players and teams
 * (src/types/index.ts), plus the optional-value wrapper that stands for
 * TypeScript's `field?: T`.
 */
module Types {

  /** A TypeScript optional field: absent (`undefined`) or present. */
  datatype Option<+T> = None | Some(value: T)

  /** The four positions a player may be listed for. */
  datatype Position = Goalkeeper | Defender | Midfielder | Forward

  /**
   * A player. `positions` is ordered: its first entry is the primary
   * position used for grouping. `isSelected` and `isGuest` are optional
   * flags, so each is `None` when the record does not carry it.
   */
  datatype Player = Player(
    id: string,
    name: string,
    positions: seq<Position>,
    rating: real,
    isSelected: Option<bool>,
    isGuest: Option<bool>)

  /** A team: a fixed slot id, a display name, its members in joining order and an optional average. */
  datatype Team = Team(id: string, name: string, players: seq<Player>, averageRating: Option<real>)

  /** `player.positions.includes(pos)`: the position may sit anywhere in the list. */
  predicate HasPosition(p: Player, pos: Position) {
    pos in p.positions
  }

  /** Goalkeeper-eligible: `Goalkeeper` is one of the listed positions, not necessarily the first. */
  predicate IsGoalkeeper(p: Player) {
    HasPosition(p, Goalkeeper)
  }

  predicate IsOutfielder(p: Player) {
    !IsGoalkeeper(p)
  }

  /** The truthiness of the optional `isSelected` flag: an absent flag reads as false. */
  predicate IsSelected(p: Player) {
    p.isSelected == Some(true)
  }

  /** Ids are unique across a roster. */
  ghost predicate UniqueIds(ps: seq<Player>) {
    forall i, j :: 0 <= i < j < |ps| ==> ps[i].id != ps[j].id
  }

  /** Two records that agree on every field except, possibly, `isSelected`. */
  predicate SameExceptSelection(p: Player, q: Player) {
    p.(isSelected := q.isSelected) == q
  }
}
